=== FILE: README.md ===
# salmon: a verified model of the migration engine

salmon applies numbered SQL migration files to a database and keeps a history
table of what it has applied. This project models the decision logic of its
single source file, `salmon.go`, in Dafny. The logic covered:

- **Filename parsing** (`parseMigrationFile`). A path is reduced to its base
  name the way `filepath.Base` does it. The base name is cut at its first
  `__` (`strings.SplitN(s, "__", 2)`). The first byte of the part before
  the cut, the marker, is dropped; it is never checked to be `V`. The rest
  is read the way `strconv.Atoi` reads a number: an optional sign, decimal
  digits, and a 64-bit range. Names are character sequences in the model.
  A marker outside ASCII takes more than one byte in UTF-8, so dropping one
  byte leaves a continuation byte in front of the version. `strconv.Atoi`
  rejects that byte, and the model rejects such a name as invalid.
  Everything after the cut is the description, including any later `__`
  and the `.sql` extension. A base name that starts with `__` makes
  `parts[0][1:]` panic; the model returns it as the explicit error
  `SlicePanic`.
- **Reconciliation planning**, the first loop of `Migrate`. The listed files
  are walked in listing order against the applied history:
  - the file at index i must parse to version i;
  - its content is read and its checksum compared with applied record i,
    if there is one;
  - files past the end of the history become pending migrations.

  The first failure ends the walk, and the checks run in the source's order:
  name, version, read, checksum. `Planning.PlanMigrations` is the loop as a
  method. It is proved equal to the specification function `Planning.Plan`,
  a fold of `Planning.CheckFile` over the listing.
- **The apply loop and `applyMigration`**, over an abstract store
  (`History.Store`). The store holds named tables of history rows and a log
  of executed migration contents, standing for their schema effects. The
  `History.Database` class performs the transactions in place. Each step can
  fail (`History.Fault`), and a failure rolls the transaction back. A
  version already present in the configured table is skipped. The insert
  always writes the `salmon_schema_history` table, whatever table the run
  was configured with; `Engine.CustomTableIsNeverUpdated` states the
  consequence.
- **`releaseLock`**. The error is composed from the lock-row delete and the
  error passed in (`Locking.ReleaseLockError`). `Migrate` never takes a lock
  and releases it only on the non-empty success path.
- **The whole run**, `Migrate`. `Engine.MigrateSpec` and the method
  `Engine.Migrate` run schema setup, history loading, the directory check
  and listing, planning, the apply loop and the lock release. They follow
  the source's order and its early returns.

The checksum (`calculateChecksum`: SHA-256, hex encoded) is a function
parameter `sum`. Nothing proved depends on more than equality of checksums.
The filesystem answers and each database failure are inputs
(`Engine.Environment`).

Where `salmon_test.go` and `salmon.go` disagree, the model follows
`salmon.go`. A version mismatch is reported as
`incorrect version number: <basename>`. The listing is taken in the order
given, with no numeric re-sorting. `fs.Glob` returns names in byte order,
and `'0'` (0x30) sorts before `'_'` (0x5F), so `V10__...` comes right after
`V0__...` and before `V1__...`; such a listing fails the version check at
index 1, naming `V10__...`.

## Model

| member | source | states |
|---|---|---|
| `Types.Message` | salmon.go:69-191 | the error texts of the format strings at lines 69, 87, 106, 138, 140, 186 and 191; what they name is stated by the two lemmas below |
| `Types.MessageNamesItsSubject` | salmon.go:69-191 | an invalid-name or wrong-version message ends with the base name, a checksum message with the path, a missing-directory message starts with the directory, and filesystem and database failures keep the driver's text |
| `Types.FileErrorsAreDistinct` | salmon.go:87-191 | the messages of an invalid name, a wrong version and a checksum mismatch never coincide, whatever the files are called |
| `GoStd.Base` | salmon.go:182 | the base name is never empty, and contains a separator only when it is "/" |
| `GoStd.BaseOfName` | salmon.go:182 | a plain name is its own base name and the base name of any path that ends in it |
| `GoStd.BaseIdempotent` | salmon.go:182 | taking the base name twice is taking it once |
| `GoStd.FindSeparator` | salmon.go:184 | the cut `strings.SplitN(s, "__", 2)` makes is the first "__"; none when there is none |
| `GoStd.Atoi` | salmon.go:189 | every number accepted fits in 64 bits |
| `GoStd.DecimalRoundTrip` | salmon.go:189 | reading back the decimal digits of a natural number gives that number |
| `GoStd.AtoiFormatInt` | salmon.go:189 | `strconv.Atoi` accepts every formatted 64-bit integer and returns it |
| `GoStd.AtoiRejectsLeadingNonDigit` | salmon.go:189-191 | text that starts with neither a sign nor a digit is not a number |
| `Filenames.ParseMigrationFile` | salmon.go:181-196 | an accepted name has a 64-bit version; a rejected one fails with the invalid-format error naming its base name, or with the panic of an empty version part |
| `Filenames.ParseBaseName` | salmon.go:184-195 | the same, for the base name once taken |
| `Filenames.ParseRoundTrip` | salmon.go:184-195 | any ASCII marker, the decimal form of a 64-bit version, "__" and any description without '/' parse back to that version and exactly that description, including later "__" and the extension |
| `Filenames.FirstSeparatorAfterPrefix` | salmon.go:184 | in marker + text without '_' + "__" + rest, the cut falls right after the text |
| `Filenames.ParseComposedName` | salmon.go:184-195 | with an ASCII marker, such a name parses to the number its text reads as, with the rest as description, or is rejected as invalid when the text is not a number |
| `Filenames.ParseUsesBaseName` | salmon.go:182 | parsing a path is parsing its base name: the directory plays no part |
| `Filenames.ParseWithoutSeparator` | salmon.go:184-187 | a base name without "__" fails with "invalid filename format: <basename>" |
| `Filenames.ParseNonNumericVersion` | salmon.go:189-192 | a version part such as `one` in `Vone__add_email_column.sql` fails with the same invalid-format error, in any directory |
| `Filenames.ParseEmptyPrefix` | salmon.go:189 | a base name that starts with "__" hits the slice panic |
| `Filenames.ParseNonAsciiMarker` | salmon.go:189-191 | a base name whose first character is not ASCII, such as `é0__init.sql`, fails with the invalid-format error: dropping one byte leaves a byte that is not a digit |
| `Planning.CheckFile` | salmon.go:80-116 | one turn of the loop, with the checks in the source's order: a name that does not parse fails with the parse error; a wrong version fails with "incorrect version number" and the base name; a failed read fails with the filesystem error; with all three passed, a failure is a checksum mismatch naming the path. A success means the file is already applied exactly when index < len(applied), and then the checksums match; conversely, an applied file that passes name, version and read with a matching checksum is skipped with `Ok(None)`; otherwise it is the pending migration built from the file |
| `Planning.Plan` | salmon.go:79-117 | the reference outcome of the loop over the whole listing; a successful plan holds one pending migration per file past the history |
| `Planning.PlanPrefix` | salmon.go:79-117 | a walk that succeeds passed every file's check; it holds one pending migration per file past the history, and the file at index i ≥ len(applied) gave pending entry i − len(applied) |
| `Planning.ErrorPersists` | salmon.go:80-110 | once the walk has failed, further files do not change the error |
| `Planning.PlanStep` | salmon.go:80-116 | one more file either fails the walk, leaves the pending list as it is, or appends one migration |
| `Planning.StepOutcome` | salmon.go:80-116 | a failing file's error is the error of the whole walk |
| `Planning.ExaminedAt` | salmon.go:80-81 | the candidate at index i is file i with its base name and parsed name |
| `Planning.PlanMigrations` | salmon.go:79-117 | the loop with its early returns computes exactly the planned outcome: the first failing file's error, or the pending migrations in listing order |
| `Planning.PlanVersionsAreIndices` | salmon.go:80-89 | on success, the file at listing index i parsed to version i |
| `Planning.PlanMatchesAppliedChecksums` | salmon.go:97-110 | on success, every file with an applied record was read and has that record's checksum |
| `Planning.PlanPendingAreTheUnappliedFiles` | salmon.go:111-116 | pending entry j comes from file len(applied) + j: version, description, full content, and the checksum of that content |
| `Planning.PendingCandidate` | salmon.go:111-116 | pending entry j is what the check of file len(applied) + j produced |
| `Planning.PendingVersionsAscend` | salmon.go:111-116 | pending versions are len(applied), len(applied)+1, … in order |
| `Planning.PlanSucceedsWhenEveryFilePasses` | salmon.go:80-117 | every file passing its own check is enough for the walk to succeed |
| `Planning.FirstFailureDecides` | salmon.go:80-110 | the first failing file decides the error of the whole run |
| `Planning.ErrorComesFromFirstFailure` | salmon.go:80-110 | conversely, every failed walk has a first failing file, and the error is that file's |
| `Planning.VersionCheckPrecedesRead` | salmon.go:86-100 | a version mismatch is reported with the base name before the content is read or compared: the content and the history play no part |
| `Planning.ExtraAppliedRecordsIgnored` | salmon.go:103-104 | applied records past the number of files are never looked at |
| `Planning.FullyAppliedPlansNothing` | salmon.go:103-110 | with at least as many records as files, success means nothing is pending |
| `Planning.CheckAgainstLongerHistory` | salmon.go:101-110 | a file that passed passes as applied against a history that records its checksum |
| `Planning.PlanAfterRecording` | salmon.go:103-116 | once the pending rows are appended to the history, planning again finds nothing pending |
| `Planning.PlanErrorIsACheckError` | salmon.go:80-108 | a failed plan reports a bad name, a wrong version, a failed read or a checksum mismatch, never anything else |
| `Planning.CheckErrorKind` | salmon.go:81-108 | the check of one listed file fails only with one of those errors |
| `Locking.ReleaseLockError` | salmon.go:132-141 | a successful delete returns the original error unchanged; a failed one returns the lock error for that table, carrying the delete's failure and the original error |
| `Locking.ReleaseSucceedsIff` | salmon.go:133-136 | success exactly when the delete succeeded and there was no original error |
| `Locking.LockFailureMessage` | salmon.go:137-140 | the message is the instruction naming the table, the delete's failure, and "\nfrom: " and the original message when there is one |
| `Locking.LockMessageStartsWithInstruction` | salmon.go:138-140 | every lock error's message starts with the `delete from <table> where version=-1;` instruction |
| `Locking.LockMessageEndsWithOriginal` | salmon.go:137-138 | the original error's message is kept whole at the end |
| `History.Drop` | salmon.go:123 | the faults from migration k on are those of the k-th and later migrations |
| `History.EnsureSchemaSpec` | salmon.go:47-60 | the schema transaction fails only at begin, exec or commit and then changes nothing; on success the table exists and nothing else changed |
| `History.Database.EnsureSchema` | salmon.go:47-60 | the in-place transaction ends in the specified store and error |
| `History.Recorded` | salmon.go:201 | the `version > -1` filter keeps exactly the rows with a version above -1, each as often as it is stored (duplicates included), and no other |
| `History.InsertByVersion` | salmon.go:201 | inserting adds exactly that row |
| `History.InsertBounded` | salmon.go:201 | inserting keeps every version under a common bound |
| `History.InsertSorted` | salmon.go:201 | inserting into rows sorted by version keeps them sorted |
| `History.SortByVersion` | salmon.go:201 | `order by version` gives a sorted permutation of the rows |
| `History.LoadApplied` | salmon.go:198-216 | the loaded history is sorted by version and is a permutation of the recorded rows |
| `History.LoadSpec` | salmon.go:62-65 | loading succeeds exactly when the query does not fail and the table exists, and then returns the loaded history |
| `History.RecordedKeepsNonNegative` | salmon.go:201 | rows with non-negative versions all pass the filter |
| `History.SortKeepsSorted` | salmon.go:201 | rows already in version order come back as they are |
| `History.LoadContiguous` | salmon.go:198-216 | a history whose k-th row has version k loads back exactly as stored |
| `History.ApplyMigrationSpec` | salmon.go:143-174 | all or nothing: a failure leaves the store unchanged; a success either changes nothing or adds exactly one history row and one executed content; it changes only for a version the configured table does not hold; its errors are database errors |
| `History.Database.ApplyMigration` | salmon.go:143-174 | the transaction, staged on a private copy and published by the commit, ends in the specified store and error |
| `History.SkipWhenRecorded` | salmon.go:149-158 | a version already present is a no-op whatever would fail later |
| `History.ApplyFresh` | salmon.go:160-173 | without faults, a new version is recorded and its content executed |
| `History.ApplyAll` | salmon.go:123-127 | the loop only appends effects and history rows and leaves other tables alone; its errors are database errors |
| `History.Database.ApplyMigrations` | salmon.go:123-127 | the loop applies in order and returns the first failure, ending in the specified store |
| `History.ApplyAllAppend` | salmon.go:123-127 | applying two lists is applying the first and, only if it succeeded, the second with the faults that follow |
| `History.StopsAtFirstFailure` | salmon.go:123-127 | the first failing migration's outcome is the loop's outcome; later ones are not attempted |
| `History.ApplyAllFresh` | salmon.go:123-127 | without faults, new distinct versions are all recorded in order and their contents executed in order |
| `History.CustomTableNeverRecorded` | salmon.go:150-163 | with a table other than the history table, that table is never written |
| `History.WithoutLock` | salmon.go:133 | the delete removes exactly the lock rows: no row with version -1 is left and every other row is kept as often as it was stored |
| `History.LockFailure` | salmon.go:133 | the delete fails exactly when a failure is injected or the table is missing |
| `History.ReleaseLockSpec` | salmon.go:132-141 | a failed delete changes nothing; a successful one leaves the named table without its lock rows; other tables and the executed contents are untouched; the error is the composed lock error |
| `History.Database.ReleaseLock` | salmon.go:132-141 | the in-place delete ends in the specified store and error |
| `History.LockRemovalKeepsRecorded` | salmon.go:133 | deleting the lock row never changes what the history query returns |
| `History.WithoutLockKeepsUnlocked` | salmon.go:133 | rows without a lock row are left as they are |
| `History.ApplyStep` | salmon.go:123-127 | one turn of the loop as seen from the suffix still to apply |
| `Engine.EffectiveOpts` | salmon.go:27-45 | no options means the `salmon_schema_history` table and the `migrations` directory |
| `Engine.Discover` | salmon.go:67-77 | a missing directory is "<dir> directory does not exist"; other stat or glob failures come back unchanged; otherwise the listing |
| `Engine.MigrateSpec` | salmon.go:42-130 | a run only ever appends executed contents |
| `Engine.Finish` | salmon.go:119-129 | a planning error is returned unchanged; nothing pending returns success with no change; a failing apply loop's outcome is the result, without the lock release; after a successful loop the result is the lock release's outcome; so a lock error arises only after all pending migrations applied without failure |
| `Engine.Migrate` | salmon.go:42-130 | the method ends in the store and error of the specified run |
| `Engine.MigrateStages` | salmon.go:62-117 | once setup, loading and listing succeed, the plan decides the rest of the run |
| `Engine.RejectedListingChangesNothing` | salmon.go:79-117 | a listing that fails planning executes nothing, writes no row, and returns the planning error |
| `Engine.NothingPendingSkipsRelease` | salmon.go:119-121 | nothing pending returns success, executes nothing, and never reaches the lock release |
| `Engine.ApplyFailureSkipsRelease` | salmon.go:123-127 | when a pending migration fails, the run ends with the apply loop's outcome, whatever the lock release would have done |
| `Engine.LockErrorOnlyAfterApplying` | salmon.go:119-129 | a lock error means setup, loading and planning succeeded with something pending, and every pending migration was applied |
| `Engine.ContiguousExtension` | salmon.go:111-116 | pending versions that count up from a contiguous history extend it contiguously and are all new |
| `Engine.HealthyFinish` | salmon.go:119-129 | without faults the end of the run records and executes every pending migration, in order |
| `Engine.SetupCreatesHistory` | salmon.go:47-60 | the healthy schema setup leaves the store as it was, with the history table present: empty when it was absent |
| `Engine.HealthyRunRecordsPending` | salmon.go:42-130 | with default options, nothing failing and a contiguous history or none at all (a first run on a fresh database), a run records the pending migrations after the history and executes them in order |
| `Engine.SecondRunChangesNothing` | salmon.go:42-130 | running twice is running once, from a contiguous history or a fresh database: the second run succeeds and changes nothing |
| `Engine.CustomRunKeepsRows` | salmon.go:52-163 | with a custom table name, a run leaves that table's rows as they were or deletes its lock rows |
| `Engine.CustomTableIsNeverUpdated` | salmon.go:52-163 | with a custom table name, the history that table yields is the same after any run, so the next run plans the same migrations again |

## Left out

- Filesystem access (`fs.Stat`, `fs.Glob`, `Open`, `io.ReadAll`, the `osFS` wrapper). The directory check, the listing in the order `fs.Glob` returns it, and each file's read outcome are inputs. The `*.sql` pattern match itself is not modelled.
- SQL execution. Running a migration's content is an entry appended to the effect log, and a failing statement is an injected fault. The DDL text of `schema` and the parsing of SQL are not modelled.
- Row scanning in `getAppliedMigrations`. A failing query or scan is one injected load failure.
- `History.SortByVersion`: the order SQL gives rows with equal versions is unspecified; the model keeps their stored order.
- SHA-256 and hex encoding in `calculateChecksum`. They are the parameter `sum`; no property of the hash beyond equality is used.
- `clearStatement` and its regular expressions. Nothing in the engine calls them.
- `Opts.Verbose` and `Opts.FS`, which are configuration only. `Migrate`'s `migrationDir` argument is never read by the source, and the model ignores it too.
- Context cancellation, connection handling, and the transaction that the "exists" branch of `applyMigration` leaves open. The model treats that branch as a skip that changes nothing.
- `GoStd.Base`: only '/' is a separator (the Unix behaviour). Windows volume names and '\' are not modelled.
- `Filenames.ParseMigrationFile`: the Go runtime panic for a base name beginning with "__" is returned as the `SlicePanic` error rather than crashing the process.
- Error wrapping. Database and filesystem failures carry only their message text.
- Bytes. Paths, names and file contents are sequences of characters, not of bytes: a file whose content is not valid UTF-8 is not modelled, and a content is a string rather than a `[]byte`. Byte indexing matters only for the marker, and there the model states its effect (`Filenames.ParseNonAsciiMarker`).
- `Planning.PlanMigrations` examines every listed path (base name and parsed name) before its loop rather than inside it. Both are pure, so no result or error changes; the checks and the reads still run file by file.
- `Types.Message`: its ensures are stated by `Types.MessageNamesItsSubject` and `Types.FileErrorsAreDistinct` instead of on the function itself.

=== FILE: engine.dfy ===
/**
 * `Migrate`: the whole run. Schema setup in its own transaction, loading the
 * applied history, checking and listing the migration directory, planning,
 * and, only when something is pending, applying the pending migrations and
 * releasing the lock. No lock is ever taken; the release merely deletes a
 * lock row if there is one.
 *
 * The filesystem answers (whether the directory exists, the listing, each
 * file's content) and every database failure are inputs, gathered in an
 * `Environment`; the database itself is the `Database` store.
 */
module Engine {
  import opened Types
  import opened Planning
  import opened Locking
  import opened History

  /** The configuration `Migrate` reads: the history table and the migration directory. */
  datatype Opts = Opts(tableName: string, dir: string)

  /** defaultOpts: the standard history table name and the "migrations" directory. */
  const DefaultOpts: Opts := Opts("salmon_schema_history", "migrations")

  /** A missing configuration means the defaults. */
  function EffectiveOpts(opts: Option<Opts>): (o: Opts)
    ensures opts.None? ==> o.tableName == HistoryTable && o.dir == "migrations"
    ensures opts.Some? ==> o == opts.value
  {
    match opts
    case None => DefaultOpts
    case Some(given) => given
  }

  /** What the filesystem says about the directory: it is missing, checking it failed, globbing it failed, or its listing. */
  datatype Discovery = DirMissing | StatFailed(message: string) | GlobFailed(message: string) | Listed(files: seq<SourceFile>)

  /** The directory check and the listing, with the error each failure is reported with. */
  function Discover(dir: string, d: Discovery): (r: Result<seq<SourceFile>>)
    ensures r.Ok? <==> d.Listed?
    ensures r.Ok? ==> r.value == d.files
    ensures d.DirMissing? ==> r == Err(DirectoryMissing(dir))
    ensures d.StatFailed? || d.GlobFailed? ==> r == Err(FsError(d.message))
  {
    match d
    case DirMissing => Err(DirectoryMissing(dir))
    case StatFailed(m) => Err(FsError(m))
    case GlobFailed(m) => Err(FsError(m))
    case Listed(files) => Ok(files)
  }

  /** Everything outside the engine that decides a run: the filesystem and each database failure. */
  datatype Environment = Environment(
    setupFault: Fault,           // the schema transaction
    loadFault: Option<string>,   // the applied-history query
    discovery: Discovery,        // the directory check and listing
    applyFaults: seq<Fault>,     // one per pending migration, in order
    unlockFault: Option<string>) // the lock-row delete

  /** The same run with nothing failing and the given listing. */
  function Healthy(files: seq<SourceFile>): Environment
  {
    Environment(NoFault, None, Listed(files), [], None)
  }

  /**
   * The run, step by step in the source's order; the first failure is
   * returned with the store as it then is. `migrationDir` is accepted and
   * never read: the directory comes from the options.
   */
  function MigrateSpec(s: Store, migrationDir: string, opts: Option<Opts>, env: Environment, sum: string -> string): (o: Outcome)
    ensures s.effects <= o.store.effects
  {
    var table := EffectiveOpts(opts).tableName;
    var setup := EnsureSchemaSpec(s, table, env.setupFault);
    if setup.error.Some? then setup
    else
      match LoadSpec(setup.store, table, env.loadFault)
      case Err(e) => Outcome(setup.store, Some(e))
      case Ok(applied) =>
        match Discover(EffectiveOpts(opts).dir, env.discovery)
        case Err(e) => Outcome(setup.store, Some(e))
        case Ok(files) => Finish(setup.store, table, Plan(files, applied, sum), env)
  }

  /**
   * The end of the run once the plan is known: its error, nothing when
   * nothing is pending, otherwise the apply loop and, after it succeeded,
   * the lock release.
   */
  function Finish(t: Store, table: string, plan: Result<seq<Migration>>, env: Environment): (o: Outcome)
    ensures t.effects <= o.store.effects
    ensures plan.Err? ==> o == Outcome(t, Some(plan.error))
    ensures plan == Ok([]) ==> o == Outcome(t, None)
    ensures o.error.Some? && o.error.value.LockStuck? && plan.Ok? ==>
              plan.value != [] && ApplyAll(t, plan.value, table, env.applyFaults).error.None?
    ensures plan.Ok? && plan.value != [] && ApplyAll(t, plan.value, table, env.applyFaults).error.Some? ==>
              o == ApplyAll(t, plan.value, table, env.applyFaults)
    ensures plan.Ok? && plan.value != [] && ApplyAll(t, plan.value, table, env.applyFaults).error.None? ==>
              o == ReleaseLockSpec(ApplyAll(t, plan.value, table, env.applyFaults).store, table, env.unlockFault, None)
  {
    match plan
    case Err(e) => Outcome(t, Some(e))
    case Ok(pending) =>
      if pending == [] then Outcome(t, None)
      else
        var run := ApplyAll(t, pending, table, env.applyFaults);
        if run.error.Some? then run
        else ReleaseLockSpec(run.store, table, env.unlockFault, None)
  }

  /** `Migrate` against a database changed in place. */
  method Migrate(db: Database, migrationDir: string, opts: Option<Opts>, env: Environment, sum: string -> string)
    returns (err: Option<Error>)
    modifies db
    ensures Outcome(db.State(), err) == MigrateSpec(old(db.State()), migrationDir, opts, env, sum)
  {
    var effective := EffectiveOpts(opts);
    err := db.EnsureSchema(effective.tableName, env.setupFault);
    if err.Some? {
      return;
    }
    var loaded := LoadSpec(db.State(), effective.tableName, env.loadFault);
    if loaded.Err? {
      return Some(loaded.error);
    }
    var listing := Discover(effective.dir, env.discovery);
    if listing.Err? {
      return Some(listing.error);
    }
    var planned := PlanMigrations(listing.value, loaded.value, sum);
    if planned.Err? {
      return Some(planned.error);
    }
    if planned.value == [] {
      return None;
    }
    err := db.ApplyMigrations(planned.value, effective.tableName, env.applyFaults);
    if err.Some? {
      return;
    }
    err := db.ReleaseLock(effective.tableName, env.unlockFault, None);
  }

  // ---------------------------------------------------------------------
  // Properties of a run
  // ---------------------------------------------------------------------

  /** Once setup, loading and listing have succeeded, the run is decided by the plan of the listing against the loaded history. */
  lemma MigrateStages(s: Store, migrationDir: string, opts: Option<Opts>, env: Environment, sum: string -> string,
                      applied: seq<Row>)
    requires EnsureSchemaSpec(s, EffectiveOpts(opts).tableName, env.setupFault).error.None?
    requires LoadSpec(EnsureSchemaSpec(s, EffectiveOpts(opts).tableName, env.setupFault).store,
                      EffectiveOpts(opts).tableName, env.loadFault) == Ok(applied)
    requires env.discovery.Listed?
    ensures MigrateSpec(s, migrationDir, opts, env, sum)
            == Finish(EnsureSchemaSpec(s, EffectiveOpts(opts).tableName, env.setupFault).store,
                      EffectiveOpts(opts).tableName, Plan(env.discovery.files, applied, sum), env)
  {
  }

  /**
   * A listing that fails the checks changes nothing but the schema setup:
   * no content is executed, no row is written, and the error is the
   * planning error.
   */
  lemma RejectedListingChangesNothing(s: Store, migrationDir: string, opts: Option<Opts>, env: Environment,
                                      sum: string -> string, applied: seq<Row>)
    requires EnsureSchemaSpec(s, EffectiveOpts(opts).tableName, env.setupFault).error.None?
    requires LoadSpec(EnsureSchemaSpec(s, EffectiveOpts(opts).tableName, env.setupFault).store,
                      EffectiveOpts(opts).tableName, env.loadFault) == Ok(applied)
    requires env.discovery.Listed? && Plan(env.discovery.files, applied, sum).Err?
    ensures MigrateSpec(s, migrationDir, opts, env, sum).error == Some(Plan(env.discovery.files, applied, sum).error)
    ensures MigrateSpec(s, migrationDir, opts, env, sum).store.effects == s.effects
    ensures forall t :: t in s.tables ==> MigrateSpec(s, migrationDir, opts, env, sum).store.tables[t] == s.tables[t]
  {
    MigrateStages(s, migrationDir, opts, env, sum, applied);
  }

  /** Nothing pending means success with no further action: in particular the lock is not released. */
  lemma NothingPendingSkipsRelease(s: Store, migrationDir: string, opts: Option<Opts>, env: Environment,
                                   sum: string -> string, applied: seq<Row>, unlockFault: Option<string>)
    requires EnsureSchemaSpec(s, EffectiveOpts(opts).tableName, env.setupFault).error.None?
    requires LoadSpec(EnsureSchemaSpec(s, EffectiveOpts(opts).tableName, env.setupFault).store,
                      EffectiveOpts(opts).tableName, env.loadFault) == Ok(applied)
    requires env.discovery.Listed? && Plan(env.discovery.files, applied, sum) == Ok([])
    ensures MigrateSpec(s, migrationDir, opts, env, sum).error.None?
    ensures MigrateSpec(s, migrationDir, opts, env, sum).store.effects == s.effects
    ensures MigrateSpec(s, migrationDir, opts, env.(unlockFault := unlockFault), sum)
            == MigrateSpec(s, migrationDir, opts, env, sum)
  {
    MigrateStages(s, migrationDir, opts, env, sum, applied);
    MigrateStages(s, migrationDir, opts, env.(unlockFault := unlockFault), sum, applied);
  }

  /**
   * A failing migration ends the run with the apply loop's outcome: the
   * lock release is never reached, so its failure plays no part.
   */
  lemma ApplyFailureSkipsRelease(s: Store, migrationDir: string, opts: Option<Opts>, env: Environment,
                                 sum: string -> string, applied: seq<Row>, unlockFault: Option<string>)
    requires EnsureSchemaSpec(s, EffectiveOpts(opts).tableName, env.setupFault).error.None?
    requires LoadSpec(EnsureSchemaSpec(s, EffectiveOpts(opts).tableName, env.setupFault).store,
                      EffectiveOpts(opts).tableName, env.loadFault) == Ok(applied)
    requires env.discovery.Listed? && Plan(env.discovery.files, applied, sum).Ok?
    requires ApplyAll(EnsureSchemaSpec(s, EffectiveOpts(opts).tableName, env.setupFault).store,
                      Plan(env.discovery.files, applied, sum).value, EffectiveOpts(opts).tableName, env.applyFaults).error.Some?
    ensures MigrateSpec(s, migrationDir, opts, env, sum)
            == ApplyAll(EnsureSchemaSpec(s, EffectiveOpts(opts).tableName, env.setupFault).store,
                        Plan(env.discovery.files, applied, sum).value, EffectiveOpts(opts).tableName, env.applyFaults)
    ensures MigrateSpec(s, migrationDir, opts, env.(unlockFault := unlockFault), sum)
            == MigrateSpec(s, migrationDir, opts, env, sum)
  {
    MigrateStages(s, migrationDir, opts, env, sum, applied);
    MigrateStages(s, migrationDir, opts, env.(unlockFault := unlockFault), sum, applied);
  }

  /** The lock release runs only after every pending migration was applied: a lock error implies a non-empty plan applied without failure. */
  lemma LockErrorOnlyAfterApplying(s: Store, migrationDir: string, opts: Option<Opts>, env: Environment, sum: string -> string)
    requires MigrateSpec(s, migrationDir, opts, env, sum).error.Some?
    requires MigrateSpec(s, migrationDir, opts, env, sum).error.value.LockStuck?
    ensures EnsureSchemaSpec(s, EffectiveOpts(opts).tableName, env.setupFault).error.None?
    ensures LoadSpec(EnsureSchemaSpec(s, EffectiveOpts(opts).tableName, env.setupFault).store,
                     EffectiveOpts(opts).tableName, env.loadFault).Ok?
    ensures env.discovery.Listed?
    ensures var setup := EnsureSchemaSpec(s, EffectiveOpts(opts).tableName, env.setupFault).store;
            var applied := LoadSpec(setup, EffectiveOpts(opts).tableName, env.loadFault).value;
            var plan := Plan(env.discovery.files, applied, sum);
            plan.Ok? && plan.value != [] && ApplyAll(setup, plan.value, EffectiveOpts(opts).tableName, env.applyFaults).error.None?
  {
    var table := EffectiveOpts(opts).tableName;
    var setup := EnsureSchemaSpec(s, table, env.setupFault);
    var loaded := LoadSpec(setup.store, table, env.loadFault);
    assert setup.error.None? && loaded.Ok?;
    assert env.discovery.Listed?;
    MigrateStages(s, migrationDir, opts, env, sum, loaded.value);
    if Plan(env.discovery.files, loaded.value, sum).Err? {
      PlanErrorIsACheckError(env.discovery.files, loaded.value, sum);
    }
  }

  /** Versions that count up from the length of a contiguous history extend it contiguously, with none already recorded. */
  lemma ContiguousExtension(rows: seq<Row>, pending: seq<Migration>)
    requires Contiguous(rows)
    requires forall j :: 0 <= j < |pending| ==> pending[j].version == |rows| + j
    ensures Contiguous(rows + RowsOf(pending))
    ensures DistinctVersions(pending)
    ensures forall k :: 0 <= k < |pending| ==> !HasVersion(rows, pending[k].version)
  {
    var grown := rows + RowsOf(pending);
    forall k | 0 <= k < |grown|
      ensures grown[k].version == k
    {
      if k >= |rows| {
        assert grown[k] == RowOf(pending[k - |rows|]);
      }
    }
  }

  /** The end of a healthy run against the history table: every pending migration recorded and executed, in order. */
  lemma HealthyFinish(t: Store, pending: seq<Migration>, env: Environment)
    requires HistoryTable in t.tables && Contiguous(t.tables[HistoryTable])
    requires forall j :: 0 <= j < |pending| ==> pending[j].version == |t.tables[HistoryTable]| + j
    requires env.applyFaults == [] && env.unlockFault.None?
    ensures Finish(t, HistoryTable, Ok(pending), env)
            == Outcome(Store(t.tables[HistoryTable := t.tables[HistoryTable] + RowsOf(pending)], t.effects + Contents(pending)), None)
  {
    var rows := t.tables[HistoryTable];
    ContiguousExtension(rows, pending);
    if pending == [] {
      assert rows + RowsOf(pending) == rows;
      assert t.effects + Contents(pending) == t.effects;
      assert t.tables[HistoryTable := rows] == t.tables;
    } else {
      ApplyAllFresh(t, pending);
      WithoutLockKeepsUnlocked(rows + RowsOf(pending));
    }
  }

  /** The history table's rows before the run; an absent table is created empty by the schema setup. */
  function StoredHistory(s: Store): seq<Row>
  {
    if HistoryTable in s.tables then s.tables[HistoryTable] else []
  }

  /**
   * With the default options, nothing failing and a history whose k-th row
   * records version k (or no history table yet, which the setup creates),
   * a run whose plan succeeds records the pending migrations after the
   * history, in order, and executes their contents in order.
   */
  lemma HealthyRunRecordsPending(s: Store, migrationDir: string, files: seq<SourceFile>, sum: string -> string,
                                 pending: seq<Migration>)
    requires HistoryTable in s.tables ==> Contiguous(s.tables[HistoryTable])
    requires Plan(files, StoredHistory(s), sum) == Ok(pending)
    ensures MigrateSpec(s, migrationDir, None, Healthy(files), sum)
            == Outcome(Store(s.tables[HistoryTable := StoredHistory(s) + RowsOf(pending)], s.effects + Contents(pending)), None)
  {
    var rows := StoredHistory(s);
    var t := SetupCreatesHistory(s);
    LoadContiguous(rows);
    assert LoadSpec(t, HistoryTable, None) == Ok(rows);
    MigrateStages(s, migrationDir, None, Healthy(files), sum, rows);
    PendingVersionsAscend(files, rows, sum);
    HealthyFinish(t, pending, Healthy(files));
    UpdateTwice(s.tables, HistoryTable, rows, rows + RowsOf(pending));
  }

  /** Setting a table twice keeps the second value. */
  lemma UpdateTwice(tables: map<string, seq<Row>>, name: string, first: seq<Row>, second: seq<Row>)
    ensures tables[name := first][name := second] == tables[name := second]
  {
  }

  /** The healthy schema setup leaves the store as it was, with the history table present. */
  lemma SetupCreatesHistory(s: Store) returns (t: Store)
    requires HistoryTable in s.tables ==> Contiguous(s.tables[HistoryTable])
    ensures EnsureSchemaSpec(s, HistoryTable, NoFault) == Outcome(t, None)
    ensures t.tables == s.tables[HistoryTable := StoredHistory(s)] && t.effects == s.effects
    ensures Contiguous(StoredHistory(s))
  {
    t := EnsureSchemaSpec(s, HistoryTable, NoFault).store;
    if HistoryTable in s.tables {
      assert s.tables[HistoryTable := StoredHistory(s)] == s.tables;
    }
  }

  /**
   * Running twice is running once: after a healthy run from a contiguous
   * history, or from a database without the history table, a second healthy
   * run over the same listing succeeds and changes nothing.
   */
  lemma SecondRunChangesNothing(s: Store, migrationDir: string, files: seq<SourceFile>, sum: string -> string)
    requires HistoryTable in s.tables ==> Contiguous(s.tables[HistoryTable])
    requires |StoredHistory(s)| <= |files|
    requires Plan(files, StoredHistory(s), sum).Ok?
    ensures var first := MigrateSpec(s, migrationDir, None, Healthy(files), sum);
            MigrateSpec(first.store, migrationDir, None, Healthy(files), sum) == Outcome(first.store, None)
  {
    var rows := StoredHistory(s);
    var pending := Plan(files, rows, sum).value;
    HealthyRunRecordsPending(s, migrationDir, files, sum, pending);
    var first := MigrateSpec(s, migrationDir, None, Healthy(files), sum);
    var grown := rows + RowsOf(pending);
    assert first.store.tables[HistoryTable] == grown;
    PendingVersionsAscend(files, rows, sum);
    ContiguousExtension(rows, pending);
    assert EnsureSchemaSpec(first.store, HistoryTable, NoFault) == Outcome(first.store, None);
    LoadContiguous(grown);
    PlanAfterRecording(files, rows, sum, pending);
    MigrateStages(first.store, migrationDir, None, Healthy(files), sum, grown);
  }

  /**
   * With a table name other than the history table, the table the run
   * checks for applied versions is never written (at most its lock row is
   * deleted): the next run finds the same history and plans the same
   * migrations again.
   */
  lemma CustomTableIsNeverUpdated(s: Store, migrationDir: string, opts: Opts, env: Environment, sum: string -> string)
    requires opts.tableName != HistoryTable && opts.tableName in s.tables
    ensures opts.tableName in MigrateSpec(s, migrationDir, Some(opts), env, sum).store.tables
    ensures Recorded(MigrateSpec(s, migrationDir, Some(opts), env, sum).store.tables[opts.tableName])
            == Recorded(s.tables[opts.tableName])
  {
    CustomRunKeepsRows(s, migrationDir, opts, env, sum);
    LockRemovalKeepsRecorded(s.tables[opts.tableName]);
  }

  /** With a custom table, a run leaves that table's rows as they were, or deletes its lock rows. */
  lemma CustomRunKeepsRows(s: Store, migrationDir: string, opts: Opts, env: Environment, sum: string -> string)
    requires opts.tableName != HistoryTable && opts.tableName in s.tables
    ensures var out := MigrateSpec(s, migrationDir, Some(opts), env, sum).store;
            opts.tableName in out.tables &&
            (out.tables[opts.tableName] == s.tables[opts.tableName]
             || out.tables[opts.tableName] == WithoutLock(s.tables[opts.tableName]))
  {
    var table := opts.tableName;
    var setup := EnsureSchemaSpec(s, table, env.setupFault);
    if setup.error.None? {
      var loaded := LoadSpec(setup.store, table, env.loadFault);
      if loaded.Ok? && env.discovery.Listed? {
        MigrateStages(s, migrationDir, Some(opts), env, sum, loaded.value);
        var plan := Plan(env.discovery.files, loaded.value, sum);
        if plan.Ok? && plan.value != [] {
          CustomTableNeverRecorded(setup.store, plan.value, table, env.applyFaults);
        }
      }
    }
  }
}

=== FILE: filenames.dfy ===
/**
 * Parsing a migration file name `V<version>__<description>` into its version
 * and description. Only the last path element is looked at; it is cut once,
 * at its first "__"; the first byte of the part before the cut (the marker,
 * conventionally 'V' but never checked) is dropped and the rest is read with
 * `strconv.Atoi`; everything after the cut, extension included, is the
 * description.
 *
 * Names are sequences of characters here, while the source slices UTF-8
 * bytes. The two agree except on a marker outside ASCII: dropping its first
 * byte leaves a continuation byte in front of the version, which is neither
 * a sign nor a digit, so such a name is always rejected as invalid.
 */
module Filenames {
  import opened Types
  import opened GoStd

  datatype ParsedName = ParsedName(version: int, description: string)

  function ParseMigrationFile(filename: string): (r: Result<ParsedName>)
    ensures r.Ok? ==> IsInt64(r.value.version)
    ensures r.Err? ==> r.error == InvalidFilename(Base(filename)) || r.error == SlicePanic(Base(filename))
  {
    ParseBaseName(Base(filename))
  }

  /** The parse of the last path element `base`. */
  function ParseBaseName(base: string): (r: Result<ParsedName>)
    ensures r.Ok? ==> IsInt64(r.value.version)
    ensures r.Err? ==> r.error == InvalidFilename(base) || r.error == SlicePanic(base)
  {
    match FindSeparator(base)
    case None => Err(InvalidFilename(base))
    case Some(i) =>
      if i == 0 then Err(SlicePanic(base))
      else if !IsAscii(base[0]) then Err(InvalidFilename(base))
      else
        match Atoi(base[1..i])
        case None => Err(InvalidFilename(base))
        case Some(v) => Ok(ParsedName(v, base[i + 2..]))
  }

  /**
   * Round trip of the naming convention: any ASCII marker, the decimal
   * form of any 64-bit version, "__", then any description (which may itself
   * contain "__" and keeps its extension) parses back to that version and
   * exactly that description.
   */
  lemma ParseRoundTrip(marker: char, version: int, description: string)
    requires IsAscii(marker) && marker != '/' && '/' !in description
    requires IsInt64(version)
    ensures ParseMigrationFile([marker] + FormatInt(version) + "__" + description)
            == Ok(ParsedName(version, description))
  {
    var digits := FormatInt(version);
    var name := [marker] + digits + "__" + description;
    BaseOfName("", name);
    AtoiFormatInt(version);
    ParseComposedName(marker, digits, description);
  }

  /** When the first "__" of a name made of marker, `text`, "__" and `rest` is the one after `text`. */
  lemma FirstSeparatorAfterPrefix(marker: char, text: string, rest: string)
    requires text != [] && '_' !in text
    ensures FindSeparator([marker] + text + "__" + rest) == Some(1 + |text|)
  {
    var name := [marker] + text + "__" + rest;
    var cut := 1 + |text|;
    assert name[cut] == '_' && name[cut + 1] == '_';
    assert SepAt(name, cut);
    forall j | 0 <= j < cut
      ensures !SepAt(name, j)
    {
      if j < |text| { assert name[j + 1] == text[j]; } else { assert name[j] == text[j - 1]; }
    }
  }

  /** The parse of a base name made of an ASCII marker, a version text without '_', "__" and the rest. */
  lemma ParseComposedName(marker: char, text: string, rest: string)
    requires IsAscii(marker) && text != [] && '_' !in text
    ensures ParseBaseName([marker] + text + "__" + rest)
            == match Atoi(text)
               case None => Err(InvalidFilename([marker] + text + "__" + rest))
               case Some(v) => Ok(ParsedName(v, rest))
  {
    var name := [marker] + text + "__" + rest;
    var cut := 1 + |text|;
    FirstSeparatorAfterPrefix(marker, text, rest);
    assert name[1..cut] == text;
    assert name[cut + 2..] == rest;
  }

  /** A file's directory plays no part: parsing a path is parsing its base name. */
  lemma ParseUsesBaseName(filename: string)
    ensures ParseMigrationFile(filename) == ParseMigrationFile(Base(filename))
  {
    BaseIdempotent(filename);
  }

  /** A base name without "__" is rejected with the invalid-format error naming it. */
  lemma ParseWithoutSeparator(filename: string)
    requires forall j :: 0 <= j < |Base(filename)| ==> !SepAt(Base(filename), j)
    ensures ParseMigrationFile(filename) == Err(InvalidFilename(Base(filename)))
  {
  }

  /** A version part that is not an integer (`Vone__...`) is rejected with the same invalid-format error. */
  lemma ParseNonNumericVersion(dir: string, marker: char, word: string, description: string)
    requires marker != '/' && '/' !in description
    requires word != [] && '_' !in word && '/' !in word
    requires !IsDigit(word[0]) && word[0] != '+' && word[0] != '-'
    ensures ParseMigrationFile(dir + "/" + [marker] + word + "__" + description)
            == Err(InvalidFilename([marker] + word + "__" + description))
  {
    var name := [marker] + word + "__" + description;
    assert dir + "/" + [marker] + word + "__" + description == dir + "/" + name;
    BaseOfName(dir, name);
    if IsAscii(marker) {
      AtoiRejectsLeadingNonDigit(word);
      ParseComposedName(marker, word, description);
    } else {
      ParseNonAsciiMarker(name);
    }
  }

  /**
   * A name whose first character lies outside ASCII is rejected as invalid:
   * `é0__init.sql` keeps a stray continuation byte in front of its "0".
   */
  lemma ParseNonAsciiMarker(base: string)
    requires base != [] && !IsAscii(base[0])
    ensures ParseBaseName(base) == Err(InvalidFilename(base))
  {
    assert !SepAt(base, 0);
  }

  /** A base name that begins with "__" has an empty version part: slicing off its marker panics in the source. */
  lemma ParseEmptyPrefix(filename: string)
    requires SepAt(Base(filename), 0)
    ensures ParseMigrationFile(filename) == Err(SlicePanic(Base(filename)))
  {
  }
}

=== FILE: gostd.dfy ===
/**
 * The Go standard-library functions whose exact behaviour the filename parser
 * depends on: `filepath.Base` (with '/' as the separator), the first split
 * point of `strings.SplitN(s, "__", 2)`, `strconv.Atoi` on a 64-bit
 * platform, and decimal formatting of an integer (`strconv.Itoa`), which
 * gives the round trip of the filename convention.
 */
module GoStd {
  import opened Types

  const MinInt64: int := -0x8000_0000_0000_0000
  const MaxInt64: int := 0x7FFF_FFFF_FFFF_FFFF

  predicate IsInt64(n: int)
  {
    MinInt64 <= n <= MaxInt64
  }

  // ---------------------------------------------------------------------
  // filepath.Base
  // ---------------------------------------------------------------------

  /** `p` without its trailing separators. */
  function TrimTrailingSlashes(p: string): (t: string)
    ensures t <= p
    ensures t == [] || t[|t| - 1] != '/'
    ensures forall k :: |t| <= k < |p| ==> p[k] == '/'
  {
    if p != [] && p[|p| - 1] == '/' then TrimTrailingSlashes(p[..|p| - 1]) else p
  }

  /** The part of `p` after its last separator (all of `p` when there is none). */
  function AfterLastSlash(p: string): (e: string)
    ensures '/' !in e
    ensures |e| <= |p| && p[|p| - |e|..] == e
    ensures |e| < |p| ==> p[|p| - |e| - 1] == '/'
  {
    if p == [] || p[|p| - 1] == '/' then []
    else
      var e := AfterLastSlash(p[..|p| - 1]);
      SuffixGrows(p, e);
      e + [p[|p| - 1]]
  }

  /** A suffix of `p` without its last character, extended by that character, is a suffix of `p`. */
  lemma SuffixGrows(p: string, e: string)
    requires p != [] && |e| < |p|
    requires p[..|p| - 1][|p| - 1 - |e|..] == e
    requires |e| < |p| - 1 ==> p[..|p| - 1][|p| - 2 - |e|] == '/'
    ensures p[|p| - |e| - 1..] == e + [p[|p| - 1]]
    ensures |e| + 1 < |p| ==> p[|p| - |e| - 2] == '/'
  {
    assert p[|p| - |e| - 1..] == p[..|p| - 1][|p| - 1 - |e|..] + [p[|p| - 1]];
  }

  /**
   * The last element of `path`: trailing separators are dropped first; an
   * empty path gives "." and a path of separators only gives "/".
   */
  function Base(path: string): (b: string)
    ensures b != []
    ensures '/' in b ==> b == "/"
  {
    if path == [] then "."
    else
      var trimmed := TrimTrailingSlashes(path);
      if trimmed == [] then "/"
      else
        AfterLastSlash(trimmed)
  }

  /** One more character that is not a separator extends the last element by that character. */
  lemma AfterLastSlashStep(p: string)
    requires p != [] && p[|p| - 1] != '/'
    ensures AfterLastSlash(p) == AfterLastSlash(p[..|p| - 1]) + [p[|p| - 1]]
  {
  }

  lemma {:induction false} AfterLastSlashOfName(prefix: string, name: string)
    requires '/' !in name
    requires prefix == [] || prefix[|prefix| - 1] == '/'
    ensures AfterLastSlash(prefix + name) == name
  {
    if name == [] {
      assert prefix + name == prefix;
    } else {
      var init := name[..|name| - 1];
      var p := prefix + name;
      assert p[..|p| - 1] == prefix + init;
      assert p[|p| - 1] == name[|name| - 1];
      AfterLastSlashStep(p);
      AfterLastSlashOfName(prefix, init);
      assert init + [name[|name| - 1]] == name;
    }
  }

  /** A path that does not end in a separator has its last element as base. */
  lemma BaseWithoutTrailingSlash(path: string)
    requires path != [] && path[|path| - 1] != '/'
    ensures Base(path) == AfterLastSlash(path)
  {
  }

  /** A plain name is its own base, and so is the last element of any path ending in it. */
  lemma BaseOfName(dir: string, name: string)
    requires name != [] && '/' !in name
    ensures Base(name) == name
    ensures Base(dir + "/" + name) == name
  {
    BaseWithoutTrailingSlash(name);
    AfterLastSlashOfName([], name);
    assert [] + name == name;
    var path := dir + "/" + name;
    assert (dir + "/") + name == path;
    assert path[|path| - 1] == name[|name| - 1];
    BaseWithoutTrailingSlash(path);
    AfterLastSlashOfName(dir + "/", name);
  }

  /** Taking the base twice changes nothing. */
  lemma BaseIdempotent(path: string)
    ensures Base(Base(path)) == Base(path)
  {
    var b := Base(path);
    if b != "/" {
      BaseOfName("", b);
    }
  }

  // ---------------------------------------------------------------------
  // strings.SplitN(s, "__", 2): the first occurrence of the separator
  // ---------------------------------------------------------------------

  /** The separator "__" starts at index `i` of `s`. */
  predicate SepAt(s: string, i: int)
  {
    0 <= i && i + 1 < |s| && s[i] == '_' && s[i + 1] == '_'
  }

  /** The first index at or after `from` where "__" starts, if any. */
  function FindSeparatorFrom(s: string, from: nat): (r: Option<nat>)
    decreases |s| - from
    ensures r.Some? ==> from <= r.value && SepAt(s, r.value)
    ensures r.Some? ==> forall j :: from <= j < r.value ==> !SepAt(s, j)
    ensures r.None? ==> forall j :: from <= j < |s| ==> !SepAt(s, j)
  {
    if from + 1 >= |s| then None
    else if s[from] == '_' && s[from + 1] == '_' then Some(from)
    else FindSeparatorFrom(s, from + 1)
  }

  /** Where `strings.SplitN(s, "__", 2)` cuts `s`: the first "__", or None when it returns one part. */
  function FindSeparator(s: string): (r: Option<nat>)
    ensures r.Some? ==> SepAt(s, r.value) && forall j :: 0 <= j < r.value ==> !SepAt(s, j)
    ensures r.None? ==> forall j :: 0 <= j < |s| ==> !SepAt(s, j)
  {
    FindSeparatorFrom(s, 0)
  }

  // ---------------------------------------------------------------------
  // strconv.Atoi and decimal formatting
  // ---------------------------------------------------------------------

  /** A character encoded in UTF-8 as one byte. */
  predicate IsAscii(c: char)
  {
    c as int < 0x80
  }

  predicate IsDigit(c: char)
  {
    '0' <= c <= '9'
  }

  predicate AllDigits(s: string)
  {
    forall i :: 0 <= i < |s| ==> IsDigit(s[i])
  }

  /** The value of a string of decimal digits, accumulated left to right as `n*10 + d`. */
  function DecimalValue(s: string): nat
    requires AllDigits(s)
  {
    if s == [] then 0 else DecimalValue(s[..|s| - 1]) * 10 + (s[|s| - 1] as int - '0' as int)
  }

  /**
   * `strconv.Atoi` with 64-bit `int`: an optional '+' or '-', then at least one
   * decimal digit and nothing else; a syntax error or a value outside the
   * 64-bit range is a failure (None).
   */
  function Atoi(s: string): (r: Option<int>)
    ensures r.Some? ==> IsInt64(r.value)
  {
    var signed := |s| > 0 && (s[0] == '+' || s[0] == '-');
    var digits := if signed then s[1..] else s;
    if digits == [] || !AllDigits(digits) then None
    else
      var magnitude: int := DecimalValue(digits);
      var n: int := if signed && s[0] == '-' then -magnitude else magnitude;
      if IsInt64(n) then Some(n) else None
  }

  function DigitChar(d: nat): (c: char)
    requires d < 10
    ensures IsDigit(c) && c as int - '0' as int == d
  {
    ('0' as int + d) as char
  }

  /** The decimal digits of `n`, most significant first, without leading zeros. */
  function Decimal(n: nat): (s: string)
    ensures s != [] && AllDigits(s)
    ensures |s| > 1 ==> s[0] != '0'
  {
    if n < 10 then [DigitChar(n)] else Decimal(n / 10) + [DigitChar(n % 10)]
  }

  /** `strconv.Itoa`: a '-' for negative values, then the decimal digits of the magnitude. */
  function FormatInt(n: int): (s: string)
    ensures s != [] && '_' !in s && '/' !in s
  {
    if n < 0 then "-" + Decimal(-n) else Decimal(n)
  }

  lemma {:induction false} DecimalRoundTrip(n: nat)
    ensures DecimalValue(Decimal(n)) == n
  {
    if n >= 10 {
      var s := Decimal(n);
      assert s[..|s| - 1] == Decimal(n / 10);
      DecimalRoundTrip(n / 10);
    }
  }

  /** Atoi reads back every 64-bit integer that FormatInt writes. */
  lemma AtoiFormatInt(n: int)
    requires IsInt64(n)
    ensures Atoi(FormatInt(n)) == Some(n)
  {
    var s := FormatInt(n);
    if n < 0 {
      var d := Decimal(-n);
      assert s == "-" + d && s[0] == '-' && s[1..] == d;
      DecimalRoundTrip(-n);
      assert DecimalValue(d) == -n;
    } else {
      DecimalRoundTrip(n);
      assert s[0] != '+' && s[0] != '-';
    }
  }

  /** A string that starts with anything but a sign or a digit is not a number. */
  lemma AtoiRejectsLeadingNonDigit(s: string)
    requires s != [] && !IsDigit(s[0]) && s[0] != '+' && s[0] != '-'
    ensures Atoi(s) == None
  {
  }
}

=== FILE: history.dfy ===
/**
 * The database side of the engine, over an abstract store: named tables of
 * history rows and a log of the migration contents that have been executed
 * (their schema effects). Each database step may fail; which one fails is an
 * input (a `Fault`), and a failed transaction is rolled back, so it leaves
 * the store as it found it.
 *
 * Specification functions come first (schema setup, the applied-history
 * query, `applyMigration`, the apply loop, the lock release); the `Database`
 * class then performs the same steps in place and is proved against them.
 */
module History {
  import opened Types
  import opened Locking

  /** The table the insert of `applyMigration` names, whatever table the engine was configured with. */
  const HistoryTable: string := "salmon_schema_history"

  /** The store: every table's rows in insertion order, and the executed migration contents in order. */
  datatype Store = Store(tables: map<string, seq<Row>>, effects: seq<string>)

  /** The store after an operation and the error it returned, if any. */
  datatype Outcome = Outcome(store: Store, error: Option<Error>)

  /** The step of a transaction that fails, with the driver's message. */
  datatype Fault =
    | NoFault
    | BeginFails(message: string)
    | QueryFails(message: string)
    | InsertFails(message: string)
    | ExecFails(message: string)
    | CommitFails(message: string)

  /** The error a statement on a table that does not exist returns. */
  function NoSuchTable(table: string): Error
  {
    DbError("no such table: " + table)
  }

  /** The fault planned for the k-th migration; migrations past the end of the list see none. */
  function FaultAt(faults: seq<Fault>, k: nat): Fault
  {
    if k < |faults| then faults[k] else NoFault
  }

  /** The faults of the migrations from the k-th on. */
  function Drop(faults: seq<Fault>, k: nat): (d: seq<Fault>)
    ensures forall j :: 0 <= j ==> FaultAt(d, j) == FaultAt(faults, k + j)
  {
    if k < |faults| then faults[k..] else []
  }

  function Contents(ms: seq<Migration>): (cs: seq<string>)
    ensures |cs| == |ms|
    ensures forall k :: 0 <= k < |ms| ==> cs[k] == ms[k].content
  {
    seq(|ms|, k requires 0 <= k < |ms| => ms[k].content)
  }

  /** Some row of `rows` has this version. */
  predicate HasVersion(rows: seq<Row>, version: int)
  {
    exists k :: 0 <= k < |rows| && rows[k].version == version
  }

  /** `after` is `before` with nothing removed: the history table only grows, effects are only appended, other tables are untouched. */
  predicate Extends(before: Store, after: Store)
  {
    && before.effects <= after.effects
    && before.tables.Keys == after.tables.Keys
    && (forall t :: t in before.tables && t != HistoryTable ==> after.tables[t] == before.tables[t])
    && (HistoryTable in before.tables ==> before.tables[HistoryTable] <= after.tables[HistoryTable])
  }

  lemma ExtendsTransitive(a: Store, b: Store, c: Store)
    requires Extends(a, b) && Extends(b, c)
    ensures Extends(a, c)
  {
  }

  // ---------------------------------------------------------------------
  // Schema setup: `create table if not exists <table>` in its own transaction
  // ---------------------------------------------------------------------

  /** Only a failing begin, statement or commit can fail this transaction; a failure leaves the store as it was. */
  function EnsureSchemaSpec(s: Store, table: string, fault: Fault): (o: Outcome)
    ensures o.error.Some? ==> o.store == s
    ensures o.error.None? <==> !(fault.BeginFails? || fault.ExecFails? || fault.CommitFails?)
    ensures o.error.None? ==> table in o.store.tables && o.store.effects == s.effects
    ensures o.error.None? ==> forall t :: t in s.tables ==> t in o.store.tables && o.store.tables[t] == s.tables[t]
    ensures o.error.None? ==> o.store.tables.Keys == s.tables.Keys + {table}
    ensures o.error.None? && table !in s.tables ==> o.store.tables[table] == []
  {
    match fault
    case BeginFails(m) => Outcome(s, Some(DbError(m)))
    case ExecFails(m) => Outcome(s, Some(DbError(m)))
    case CommitFails(m) => Outcome(s, Some(DbError(m)))
    case _ =>
      if table in s.tables then Outcome(s, None)
      else Outcome(Store(s.tables[table := []], s.effects), None)
  }

  // ---------------------------------------------------------------------
  // The applied-history query:
  //   SELECT version, description, checksum FROM <table> where version > -1 order by version
  // ---------------------------------------------------------------------

  /** The rows with a version above -1, in their stored order. */
  function Recorded(rows: seq<Row>): (r: seq<Row>)
    ensures |r| <= |rows|
    ensures forall k :: 0 <= k < |r| ==> r[k].version > -1
    ensures forall x :: x in r <==> x in rows && x.version > -1
    ensures forall x :: multiset(r)[x] == if x.version > -1 then multiset(rows)[x] else 0
  {
    if rows == [] then []
    else
      assert rows == [rows[0]] + rows[1..];
      (if rows[0].version > -1 then [rows[0]] else []) + Recorded(rows[1..])
  }

  predicate SortedByVersion(rows: seq<Row>)
  {
    forall i, j :: 0 <= i < j < |rows| ==> rows[i].version <= rows[j].version
  }

  /** `r` placed after every row of `sorted` whose version is not above its own. */
  function InsertByVersion(sorted: seq<Row>, r: Row): (o: seq<Row>)
    ensures multiset(o) == multiset(sorted) + multiset{r}
  {
    if sorted == [] || sorted[|sorted| - 1].version <= r.version then sorted + [r]
    else
      var init := sorted[..|sorted| - 1];
      assert sorted == init + [sorted[|sorted| - 1]];
      InsertByVersion(init, r) + [sorted[|sorted| - 1]]
  }

  /** Inserting keeps every version under a bound that `r` and the rows already keep. */
  lemma {:induction false} InsertBounded(sorted: seq<Row>, r: Row, bound: int)
    requires forall k :: 0 <= k < |sorted| ==> sorted[k].version <= bound
    requires r.version <= bound
    ensures forall k :: 0 <= k < |InsertByVersion(sorted, r)| ==> InsertByVersion(sorted, r)[k].version <= bound
  {
    if !(sorted == [] || sorted[|sorted| - 1].version <= r.version) {
      InsertBounded(sorted[..|sorted| - 1], r, bound);
    }
  }

  lemma {:induction false} InsertSorted(sorted: seq<Row>, r: Row)
    requires SortedByVersion(sorted)
    ensures SortedByVersion(InsertByVersion(sorted, r))
  {
    if !(sorted == [] || sorted[|sorted| - 1].version <= r.version) {
      var init := sorted[..|sorted| - 1];
      var last := sorted[|sorted| - 1];
      InsertSorted(init, r);
      InsertBounded(init, r, last.version);
    }
  }

  /** A stable insertion sort by version: rows with the same version keep their stored order. */
  function SortByVersion(rows: seq<Row>): (o: seq<Row>)
    ensures SortedByVersion(o)
    ensures multiset(o) == multiset(rows)
  {
    if rows == [] then []
    else
      var init := rows[..|rows| - 1];
      assert rows == init + [rows[|rows| - 1]];
      InsertSorted(SortByVersion(init), rows[|rows| - 1]);
      InsertByVersion(SortByVersion(init), rows[|rows| - 1])
  }

  /** What getAppliedMigrations returns for a table with these rows. */
  function LoadApplied(rows: seq<Row>): (r: seq<Row>)
    ensures SortedByVersion(r)
    ensures multiset(r) == multiset(Recorded(rows))
  {
    SortByVersion(Recorded(rows))
  }

  /** The query's outcome: the driver's failure, a missing table, or the loaded rows. */
  function LoadSpec(s: Store, table: string, loadFault: Option<string>): (r: Result<seq<Row>>)
    ensures r.Ok? <==> loadFault.None? && table in s.tables
    ensures r.Ok? ==> r.value == LoadApplied(s.tables[table])
  {
    if loadFault.Some? then Err(DbError(loadFault.value))
    else if table !in s.tables then Err(NoSuchTable(table))
    else Ok(LoadApplied(s.tables[table]))
  }

  lemma {:induction false} RecordedKeepsNonNegative(rows: seq<Row>)
    requires forall k :: 0 <= k < |rows| ==> rows[k].version >= 0
    ensures Recorded(rows) == rows
  {
    if rows != [] {
      RecordedKeepsNonNegative(rows[1..]);
      assert rows == [rows[0]] + rows[1..];
    }
  }

  lemma {:induction false} SortKeepsSorted(rows: seq<Row>)
    requires SortedByVersion(rows)
    ensures SortByVersion(rows) == rows
  {
    if rows != [] {
      var init := rows[..|rows| - 1];
      var last := rows[|rows| - 1];
      SortedInit(rows);
      SortKeepsSorted(init);
      assert SortByVersion(rows) == InsertByVersion(SortByVersion(init), last);
      assert InsertByVersion(init, last) == init + [last];
      SplitLast(rows);
    }
  }

  lemma SplitLast(rows: seq<Row>)
    requires rows != []
    ensures rows == rows[..|rows| - 1] + [rows[|rows| - 1]]
  {
  }

  /** Dropping the last row of a sorted history keeps it sorted, below that row. */
  lemma SortedInit(rows: seq<Row>)
    requires SortedByVersion(rows) && rows != []
    ensures SortedByVersion(rows[..|rows| - 1])
    ensures |rows| < 2 || rows[|rows| - 2].version <= rows[|rows| - 1].version
  {
  }

  /** A history whose k-th row has version k is loaded back exactly as it is stored. */
  lemma LoadContiguous(rows: seq<Row>)
    requires Contiguous(rows)
    ensures LoadApplied(rows) == rows
  {
    RecordedKeepsNonNegative(rows);
    SortKeepsSorted(rows);
  }

  // ---------------------------------------------------------------------
  // applyMigration: begin, exists query, insert, execute, commit
  // ---------------------------------------------------------------------

  /**
   * The existence query reads `table`; the insert always writes the
   * history table. A version already present is skipped without any
   * change. Any failure rolls the transaction back.
   */
  function ApplyMigrationSpec(s: Store, m: Migration, table: string, fault: Fault): (o: Outcome)
    ensures o.error.Some? ==> o.store == s
    ensures o.store == s
            || (HistoryTable in s.tables
                && o.store == Store(s.tables[HistoryTable := s.tables[HistoryTable] + [RowOf(m)]], s.effects + [m.content]))
    ensures Extends(s, o.store)
    ensures o.store != s ==> table in s.tables && !HasVersion(s.tables[table], m.version)
    ensures o.error.Some? ==> o.error.value.DbError?
  {
    if fault.BeginFails? || fault.QueryFails? then Outcome(s, Some(DbError(fault.message)))
    else if table !in s.tables then Outcome(s, Some(NoSuchTable(table)))
    else if HasVersion(s.tables[table], m.version) then Outcome(s, None)
    else if fault.InsertFails? then Outcome(s, Some(DbError(fault.message)))
    else if HistoryTable !in s.tables then Outcome(s, Some(NoSuchTable(HistoryTable)))
    else if fault.ExecFails? || fault.CommitFails? then Outcome(s, Some(DbError(fault.message)))
    else Outcome(Store(s.tables[HistoryTable := s.tables[HistoryTable] + [RowOf(m)]], s.effects + [m.content]), None)
  }

  /** Applying a migration whose version the table already holds is a no-op, whatever would have failed later. */
  lemma SkipWhenRecorded(s: Store, m: Migration, table: string, fault: Fault)
    requires table in s.tables && HasVersion(s.tables[table], m.version)
    requires !fault.BeginFails? && !fault.QueryFails?
    ensures ApplyMigrationSpec(s, m, table, fault) == Outcome(s, None)
  {
  }

  /** Without faults, a version the history table does not hold is recorded and its content executed. */
  lemma ApplyFresh(s: Store, m: Migration)
    requires HistoryTable in s.tables && !HasVersion(s.tables[HistoryTable], m.version)
    ensures ApplyMigrationSpec(s, m, HistoryTable, NoFault)
            == Outcome(Store(s.tables[HistoryTable := s.tables[HistoryTable] + [RowOf(m)]], s.effects + [m.content]), None)
  {
  }

  // ---------------------------------------------------------------------
  // The apply loop of `Migrate`
  // ---------------------------------------------------------------------

  /** The pending migrations applied in order; the first failure is returned and nothing after it is attempted. */
  function ApplyAll(s: Store, ms: seq<Migration>, table: string, faults: seq<Fault>): (o: Outcome)
    ensures Extends(s, o.store)
    ensures o.error.Some? ==> o.error.value.DbError?
    decreases |ms|
  {
    if ms == [] then Outcome(s, None)
    else
      var first := ApplyMigrationSpec(s, ms[0], table, FaultAt(faults, 0));
      if first.error.Some? then first
      else
        var rest := ApplyAll(first.store, ms[1..], table, Drop(faults, 1));
        ExtendsTransitive(s, first.store, rest.store);
        rest
  }

  /**
   * Applying `ms1 + ms2` is applying `ms1` and, only when that succeeded,
   * applying `ms2` from where it left off with the faults that follow.
   */
  lemma {:induction false} ApplyAllAppend(s: Store, ms1: seq<Migration>, ms2: seq<Migration>, table: string, faults: seq<Fault>)
    ensures ApplyAll(s, ms1 + ms2, table, faults)
            == (var o := ApplyAll(s, ms1, table, faults);
                if o.error.Some? then o else ApplyAll(o.store, ms2, table, Drop(faults, |ms1|)))
    decreases |ms1|
  {
    if ms1 == [] {
      assert ms1 + ms2 == ms2;
      assert Drop(faults, 0) == faults || |faults| == 0;
      if faults == [] {
        assert Drop(faults, 0) == [];
      }
    } else {
      var first := ApplyMigrationSpec(s, ms1[0], table, FaultAt(faults, 0));
      assert (ms1 + ms2)[0] == ms1[0];
      assert (ms1 + ms2)[1..] == ms1[1..] + ms2;
      if first.error.None? {
        ApplyAllAppend(first.store, ms1[1..], ms2, table, Drop(faults, 1));
        DropDrop(faults, 1, |ms1| - 1);
      }
    }
  }

  lemma DropDrop(faults: seq<Fault>, a: nat, b: nat)
    ensures Drop(Drop(faults, a), b) == Drop(faults, a + b)
  {
  }

  /** The first failure stops the loop: the store is the one reached before it and later migrations are not attempted. */
  lemma StopsAtFirstFailure(s: Store, ms: seq<Migration>, k: nat, table: string, faults: seq<Fault>)
    requires k < |ms|
    requires ApplyAll(s, ms[..k], table, faults).error.None?
    requires ApplyMigrationSpec(ApplyAll(s, ms[..k], table, faults).store, ms[k], table, FaultAt(faults, k)).error.Some?
    ensures ApplyAll(s, ms, table, faults)
            == ApplyMigrationSpec(ApplyAll(s, ms[..k], table, faults).store, ms[k], table, FaultAt(faults, k))
  {
    assert ms == ms[..k] + ms[k..];
    ApplyAllAppend(s, ms[..k], ms[k..], table, faults);
    assert ms[k..][0] == ms[k];
  }

  /** A history whose k-th row records version k, as a run from an empty table leaves it. */
  predicate Contiguous(rows: seq<Row>)
  {
    forall k :: 0 <= k < |rows| ==> rows[k].version == k
  }

  /** No two migrations of the list share a version. */
  predicate DistinctVersions(ms: seq<Migration>)
  {
    forall i, j :: 0 <= i < j < |ms| ==> ms[i].version != ms[j].version
  }

  /**
   * Without faults, against the history table, migrations with distinct
   * versions none of which is recorded yet are all recorded, in order, and
   * their contents executed in order.
   */
  lemma {:induction false} ApplyAllFresh(s: Store, ms: seq<Migration>)
    requires HistoryTable in s.tables
    requires DistinctVersions(ms)
    requires forall k :: 0 <= k < |ms| ==> !HasVersion(s.tables[HistoryTable], ms[k].version)
    ensures ApplyAll(s, ms, HistoryTable, [])
            == Outcome(Store(s.tables[HistoryTable := s.tables[HistoryTable] + RowsOf(ms)], s.effects + Contents(ms)), None)
    decreases |ms|
  {
    var rows := s.tables[HistoryTable];
    if ms == [] {
      assert rows + RowsOf(ms) == rows;
      assert s.effects + Contents(ms) == s.effects;
      assert s.tables[HistoryTable := rows] == s.tables;
    } else {
      ApplyFresh(s, ms[0]);
      var next := Store(s.tables[HistoryTable := rows + [RowOf(ms[0])]], s.effects + [ms[0].content]);
      var rest := ms[1..];
      forall k | 0 <= k < |rest|
        ensures !HasVersion(next.tables[HistoryTable], rest[k].version)
      {
        assert rest[k] == ms[k + 1];
        StillFresh(rows, ms[0], ms[k + 1].version);
      }
      assert Drop([], 1) == [];
      ApplyAllFresh(next, rest);
      FreshTail(s, ms, next);
    }
  }

  /** A version neither in `rows` nor that of `m` is not in `rows` after `m`'s row is added. */
  lemma StillFresh(rows: seq<Row>, m: Migration, version: int)
    requires !HasVersion(rows, version) && m.version != version
    ensures !HasVersion(rows + [RowOf(m)], version)
  {
    var grown := rows + [RowOf(m)];
    forall w | 0 <= w < |grown|
      ensures grown[w].version != version
    {
      if w < |rows| {
        assert grown[w] == rows[w];
      }
    }
  }

  /** Recording the first migration and then the rest is recording them all. */
  lemma FreshTail(s: Store, ms: seq<Migration>, next: Store)
    requires HistoryTable in s.tables && ms != []
    requires next == Store(s.tables[HistoryTable := s.tables[HistoryTable] + [RowOf(ms[0])]], s.effects + [ms[0].content])
    ensures Store(next.tables[HistoryTable := next.tables[HistoryTable] + RowsOf(ms[1..])], next.effects + Contents(ms[1..]))
            == Store(s.tables[HistoryTable := s.tables[HistoryTable] + RowsOf(ms)], s.effects + Contents(ms))
  {
    var rows := s.tables[HistoryTable];
    assert rows + [RowOf(ms[0])] + RowsOf(ms[1..]) == rows + RowsOf(ms);
    assert s.effects + [ms[0].content] + Contents(ms[1..]) == s.effects + Contents(ms);
  }

  /**
   * With a table other than the history table, the table the existence
   * query reads is never written: no migration is ever seen as applied,
   * whatever was applied before.
   */
  lemma CustomTableNeverRecorded(s: Store, ms: seq<Migration>, table: string, faults: seq<Fault>)
    requires table != HistoryTable && table in s.tables
    ensures table in ApplyAll(s, ms, table, faults).store.tables
    ensures ApplyAll(s, ms, table, faults).store.tables[table] == s.tables[table]
  {
  }

  // ---------------------------------------------------------------------
  // releaseLock: delete from <table> where version = -1
  // ---------------------------------------------------------------------

  /** The rows that are not the lock sentinel. */
  function WithoutLock(rows: seq<Row>): (r: seq<Row>)
    ensures forall k :: 0 <= k < |r| ==> r[k].version != -1
    ensures forall x :: x in r <==> x in rows && x.version != -1
    ensures forall x :: multiset(r)[x] == if x.version != -1 then multiset(rows)[x] else 0
  {
    if rows == [] then []
    else
      assert rows == [rows[0]] + rows[1..];
      (if rows[0].version != -1 then [rows[0]] else []) + WithoutLock(rows[1..])
  }

  /** The delete statement fails with the driver's message, or on a missing table; its failure is composed with `original`. */
  function ReleaseLockSpec(s: Store, table: string, unlockFault: Option<string>, original: Option<Error>): (o: Outcome)
    ensures o.store.effects == s.effects && o.store.tables.Keys == s.tables.Keys
    ensures forall t :: t in s.tables && t != table ==> o.store.tables[t] == s.tables[t]
    ensures o.error == ReleaseLockError(table, LockFailure(s, table, unlockFault), original)
    ensures LockFailure(s, table, unlockFault).Some? ==> o.store == s
    ensures LockFailure(s, table, unlockFault).None? ==>
              table in o.store.tables && o.store.tables[table] == WithoutLock(s.tables[table])
  {
    match LockFailure(s, table, unlockFault)
    case Some(_) => Outcome(s, ReleaseLockError(table, LockFailure(s, table, unlockFault), original))
    case None => Outcome(Store(s.tables[table := WithoutLock(s.tables[table])], s.effects), original)
  }

  /** The failure text of the delete, if it fails. */
  function LockFailure(s: Store, table: string, unlockFault: Option<string>): (r: Option<string>)
    ensures r.None? <==> unlockFault.None? && table in s.tables
  {
    if unlockFault.Some? then unlockFault
    else if table !in s.tables then Some(Message(NoSuchTable(table)))
    else None
  }

  /** Deleting the lock row never changes what the applied-history query returns. */
  lemma {:induction false} LockRemovalKeepsRecorded(rows: seq<Row>)
    ensures Recorded(WithoutLock(rows)) == Recorded(rows)
  {
    if rows != [] {
      LockRemovalKeepsRecorded(rows[1..]);
      var head := if rows[0].version > -1 then [rows[0]] else [];
      assert Recorded(rows) == head + Recorded(rows[1..]);
      if rows[0].version != -1 {
        var kept := [rows[0]] + WithoutLock(rows[1..]);
        assert WithoutLock(rows) == kept;
        assert kept[0] == rows[0] && kept[1..] == WithoutLock(rows[1..]);
        assert Recorded(kept) == head + Recorded(kept[1..]);
      } else {
        assert WithoutLock(rows) == [] + WithoutLock(rows[1..]) == WithoutLock(rows[1..]);
        assert head == [];
        assert Recorded(rows) == Recorded(rows[1..]);
      }
    }
  }

  /** Removing the lock from rows that hold no lock row leaves them as they are. */
  lemma {:induction false} WithoutLockKeepsUnlocked(rows: seq<Row>)
    requires forall k :: 0 <= k < |rows| ==> rows[k].version != -1
    ensures WithoutLock(rows) == rows
  {
    if rows != [] {
      WithoutLockKeepsUnlocked(rows[1..]);
      assert rows == [rows[0]] + rows[1..];
    }
  }

  // ---------------------------------------------------------------------
  // The database, changed in place
  // ---------------------------------------------------------------------

  class Database {
    var tables: map<string, seq<Row>>
    var effects: seq<string>

    function State(): Store
      reads this
    {
      Store(tables, effects)
    }

    constructor (s: Store)
      ensures State() == s
    {
      tables := s.tables;
      effects := s.effects;
    }

    /** `create table if not exists` in a transaction of its own: begin, execute, commit. */
    method EnsureSchema(table: string, fault: Fault) returns (err: Option<Error>)
      modifies this
      ensures Outcome(State(), err) == EnsureSchemaSpec(old(State()), table, fault)
    {
      if fault.BeginFails? {
        return Some(DbError(fault.message));
      }
      var txTables := tables;
      if table !in txTables {
        txTables := txTables[table := []];
      }
      if fault.ExecFails? {
        return Some(DbError(fault.message));
      }
      if fault.CommitFails? {
        return Some(DbError(fault.message));
      }
      tables := txTables;
      return None;
    }

    /**
     * `applyMigration`: the transaction works on its own copy of the tables
     * and the effect log; only the commit makes them the database's.
     */
    method ApplyMigration(m: Migration, table: string, fault: Fault) returns (err: Option<Error>)
      modifies this
      ensures Outcome(State(), err) == ApplyMigrationSpec(old(State()), m, table, fault)
    {
      if fault.BeginFails? {
        return Some(DbError(fault.message));
      }
      var txTables := tables;
      var txEffects := effects;
      if fault.QueryFails? {
        return Some(DbError(fault.message));
      }
      if table !in txTables {
        return Some(NoSuchTable(table));
      }
      var present := HasVersion(txTables[table], m.version);
      if present {
        return None;
      }
      if fault.InsertFails? {
        return Some(DbError(fault.message));
      }
      if HistoryTable !in txTables {
        return Some(NoSuchTable(HistoryTable));
      }
      txTables := txTables[HistoryTable := txTables[HistoryTable] + [RowOf(m)]];
      if fault.ExecFails? {
        return Some(DbError(fault.message));
      }
      txEffects := txEffects + [m.content];
      if fault.CommitFails? {
        return Some(DbError(fault.message));
      }
      tables, effects := txTables, txEffects;
      return None;
    }

    /** The apply loop: each pending migration in order, returning the first failure. */
    method ApplyMigrations(ms: seq<Migration>, table: string, faults: seq<Fault>) returns (err: Option<Error>)
      modifies this
      ensures Outcome(State(), err) == ApplyAll(old(State()), ms, table, faults)
    {
      for i := 0 to |ms|
        invariant ApplyAll(State(), ms[i..], table, Drop(faults, i)) == ApplyAll(old(State()), ms, table, faults)
      {
        ApplyStep(State(), ms, i, table, faults);
        err := ApplyMigration(ms[i], table, FaultAt(faults, i));
        if err.Some? {
          return;
        }
      }
      assert ms[|ms|..] == [];
      err := None;
    }

    /** `releaseLock`: delete the lock row and compose the outcome with the error passed in. */
    method ReleaseLock(table: string, unlockFault: Option<string>, original: Option<Error>) returns (err: Option<Error>)
      modifies this
      ensures Outcome(State(), err) == ReleaseLockSpec(old(State()), table, unlockFault, original)
    {
      var lockError: Option<string> := None;
      if unlockFault.Some? {
        lockError := unlockFault;
      } else if table !in tables {
        lockError := Some(Message(NoSuchTable(table)));
      } else {
        tables := tables[table := WithoutLock(tables[table])];
      }
      err := ReleaseLockError(table, lockError, original);
    }
  }

  /** One turn of the apply loop, seen from the suffix still to apply. */
  lemma ApplyStep(s: Store, ms: seq<Migration>, i: nat, table: string, faults: seq<Fault>)
    requires i < |ms|
    ensures ApplyAll(s, ms[i..], table, Drop(faults, i))
            == (var first := ApplyMigrationSpec(s, ms[i], table, FaultAt(faults, i));
                if first.error.Some? then first else ApplyAll(first.store, ms[i + 1..], table, Drop(faults, i + 1)))
  {
    assert ms[i..][0] == ms[i];
    assert ms[i..][1..] == ms[i + 1..];
    assert FaultAt(Drop(faults, i), 0) == FaultAt(faults, i);
    DropDrop(faults, i, 1);
  }
}

=== FILE: locking.dfy ===
/**
 * The error `releaseLock` returns: the result of deleting the lock row
 * (`delete from <table> where version = -1;`) decides whether the error the
 * caller passed in comes back unchanged or wrapped in an operator
 * instruction naming the table.
 */
module Locking {
  import opened Types

  /**
   * `lockError` is the delete's failure text (None when the delete
   * succeeded), `original` the error the caller passed in.
   */
  function ReleaseLockError(table: string, lockError: Option<string>, original: Option<Error>): (r: Option<Error>)
    ensures lockError.None? ==> r == original
    ensures lockError.Some? ==> r.Some? && r.value.LockStuck?
    ensures r.Some? && r.value.LockStuck? && lockError.Some? ==>
              r.value.table == table && r.value.lockError == lockError.value && r.value.original == original
  {
    match lockError
    case None => original
    case Some(l) => Some(LockStuck(table, l, original))
  }

  /** The call reports success exactly when the delete succeeded and there was nothing to report before. */
  lemma ReleaseSucceedsIff(table: string, lockError: Option<string>, original: Option<Error>)
    ensures ReleaseLockError(table, lockError, original).None? <==> lockError.None? && original.None?
  {
  }

  /**
   * A failed delete gives a message that starts with the instruction to
   * remove the lock row of `table` by hand, continues with the delete's own
   * failure text, and ends with "\nfrom: " and the original message when
   * there was an original error (and with the failure text otherwise).
   */
  lemma LockFailureMessage(table: string, lockError: string, original: Option<Error>)
    ensures Message(ReleaseLockError(table, Some(lockError), original).value)
            == LockPreamble(table) + lockError
               + (if original.Some? then "\nfrom: " + Message(original.value) else "")
  {
  }

  /** The instruction is always the prefix of the lock error's message, whatever the original error was. */
  lemma LockMessageStartsWithInstruction(table: string, lockError: string, original: Option<Error>)
    ensures LockPreamble(table) <= Message(ReleaseLockError(table, Some(lockError), original).value)
  {
    var from := if original.Some? then Some(Message(original.value)) else None;
    assert Message(ReleaseLockError(table, Some(lockError), original).value) == LockText(table, lockError, from);
    LockTextStartsWithPreamble(table, lockError, from);
  }

  lemma LockTextStartsWithPreamble(table: string, lockError: string, from: Option<string>)
    ensures LockPreamble(table) <= LockText(table, lockError, from)
  {
    var rest := lockError + (if from.Some? then FromSeparator + from.value else "");
    assert LockText(table, lockError, from) == LockPreamble(table) + rest;
  }

  /** Nothing of the original error is lost: its message is the tail of the lock error's message. */
  lemma LockMessageEndsWithOriginal(table: string, lockError: string, original: Error)
    ensures EndsWith(Message(ReleaseLockError(table, Some(lockError), Some(original)).value), Message(original))
  {
    var text := Message(original);
    var m := Message(ReleaseLockError(table, Some(lockError), Some(original)).value);
    var head := LockPreamble(table) + lockError + FromSeparator;
    assert m == head + text by {
      assert m == LockText(table, lockError, Some(text));
    }
    EndsWithAppended(head, text);
  }

  lemma EndsWithAppended(head: string, text: string)
    ensures EndsWith(head + text, text)
  {
    assert (head + text)[|head|..] == text;
  }
}

=== FILE: planning.dfy ===
/**
 * Reconciliation planning: the loop in `Migrate` that walks the listed
 * migration files in listing order against the applied history. The file at
 * listing index i must parse to version i; its content is then read and its
 * checksum compared with the i-th applied record, if there is one; files past
 * the end of the history become pending migrations. The first failure ends
 * the walk and no pending list is produced.
 *
 * The checksum function (SHA-256, hex encoded, in the source) is a parameter:
 * nothing here depends on more than equality of checksums.
 */
module Planning {
  import opened Types
  import opened GoStd
  import opened Filenames

  /** What opening and reading a listed file gave: its content or the filesystem error. */
  datatype ReadResult = Read(text: string) | ReadFailed(message: string)

  /** A listed file: its path as the listing gives it, and the outcome of reading it. */
  datatype SourceFile = SourceFile(path: string, content: ReadResult)

  /** A listed file as the loop examines it: its path, its base name, the parse of that name, and the read outcome. */
  datatype Candidate = Candidate(path: string, base: string, name: Result<ParsedName>, content: ReadResult)

  function Examine(file: SourceFile): (c: Candidate)
    ensures c.path == file.path && c.content == file.content
    ensures c.base == Base(file.path) && c.name == ParseMigrationFile(file.path)
  {
    Candidate(file.path, Base(file.path), ParseMigrationFile(file.path), file.content)
  }

  function Candidates(files: seq<SourceFile>): (cs: seq<Candidate>)
    ensures |cs| == |files|
  {
    seq(|files|, i requires 0 <= i < |files| => Examine(files[i]))
  }

  /**
   * The step for the candidate at listing `index`: Ok(None) when it matches
   * its applied record, Ok(Some(m)) when it is pending, an error otherwise.
   * The checks come in the source's order: the name, the version, the read,
   * the checksum.
   */
  function CheckFile(c: Candidate, index: nat, applied: seq<Row>, sum: string -> string): (r: Result<Option<Migration>>)
    ensures r.Ok? ==> (r.value.None? <==> index < |applied|)
    ensures r.Ok? ==> c.name.Ok? && c.name.value.version == index && c.content.Read?
    ensures r.Ok? && index < |applied| ==> sum(c.content.text) == applied[index].checksum
    ensures r.Ok? && index >= |applied| ==>
              r.value == Some(Migration(index, c.name.value.description, sum(c.content.text), c.content.text))
    ensures c.name.Err? ==> r == Err(c.name.error)
    ensures c.name.Ok? && c.name.value.version != index ==> r == Err(IncorrectVersion(c.base))
    ensures c.name.Ok? && c.name.value.version == index && c.content.ReadFailed? ==> r == Err(FsError(c.content.message))
    ensures (c.name.Ok? && c.name.value.version == index && c.content.Read? && index < |applied| &&
             sum(c.content.text) == applied[index].checksum) ==> r == Ok(None)
    ensures r.Err? && c.name.Ok? && c.name.value.version == index && c.content.Read? ==>
              index < |applied| && r.error == ChecksumMismatch(c.path)
    ensures r.Err? ==> (c.name.Err? && r.error == c.name.error) || r.error == IncorrectVersion(c.base)
                       || r.error.FsError? || r.error == ChecksumMismatch(c.path)
  {
    match c.name
    case Err(e) => Err(e)
    case Ok(parsed) =>
      if parsed.version != index then Err(IncorrectVersion(c.base))
      else
        match c.content
        case ReadFailed(message) => Err(FsError(message))
        case Read(text) =>
          var checksum := sum(text);
          if index < |applied| then
            if applied[index].checksum != checksum then Err(ChecksumMismatch(c.path)) else Ok(None)
          else
            Ok(Some(Migration(parsed.version, parsed.description, checksum, text)))
  }

  /** How many of the first `k` files lie past the end of an applied history of length `applied`. */
  function PendingCount(k: nat, applied: nat): nat
  {
    if k <= applied then 0 else k - applied
  }

  /**
   * The outcome of walking the first `k` candidates: the first error met, or
   * the pending migrations found so far.
   */
  function PlanPrefix(cs: seq<Candidate>, applied: seq<Row>, sum: string -> string, k: nat): (r: Result<seq<Migration>>)
    requires k <= |cs|
    ensures r.Ok? ==> forall i {:trigger CheckFile(cs[i], i, applied, sum)} :: 0 <= i < k ==> CheckFile(cs[i], i, applied, sum).Ok?
    ensures r.Ok? ==> |r.value| == PendingCount(k, |applied|)
    ensures r.Ok? ==> forall i {:trigger CheckFile(cs[i], i, applied, sum)} :: |applied| <= i < k ==>
                        CheckFile(cs[i], i, applied, sum) == Ok(Some(r.value[i - |applied|]))
  {
    if k == 0 then Ok([])
    else
      match PlanPrefix(cs, applied, sum, k - 1)
      case Err(e) => Err(e)
      case Ok(pending) =>
        match CheckFile(cs[k - 1], k - 1, applied, sum)
        case Err(e) => Err(e)
        case Ok(None) => Ok(pending)
        case Ok(Some(m)) => Ok(pending + [m])
  }

  /** The outcome of the whole walk over the listing. */
  function Plan(files: seq<SourceFile>, applied: seq<Row>, sum: string -> string): (r: Result<seq<Migration>>)
    ensures r.Ok? ==> |r.value| == PendingCount(|files|, |applied|)
  {
    PlanPrefix(Candidates(files), applied, sum, |files|)
  }

  /** Once the walk has failed, walking further candidates keeps that same error. */
  lemma {:induction false} ErrorPersists(cs: seq<Candidate>, applied: seq<Row>, sum: string -> string, k: nat, m: nat)
    requires k <= m <= |cs|
    requires PlanPrefix(cs, applied, sum, k).Err?
    ensures PlanPrefix(cs, applied, sum, m) == PlanPrefix(cs, applied, sum, k)
    decreases m - k
  {
    if k < m {
      ErrorPersists(cs, applied, sum, k + 1, m);
    }
  }

  /** One more step of the walk, from a prefix that has not failed. */
  lemma PlanStep(cs: seq<Candidate>, applied: seq<Row>, sum: string -> string, k: nat, pending: seq<Migration>)
    requires k < |cs| && PlanPrefix(cs, applied, sum, k) == Ok(pending)
    ensures PlanPrefix(cs, applied, sum, k + 1) == match CheckFile(cs[k], k, applied, sum)
                                                  case Err(e) => Err(e)
                                                  case Ok(None) => Ok(pending)
                                                  case Ok(Some(m)) => Ok(pending + [m])
  {
  }

  /** The candidate at listing index i is file i, examined. */
  lemma ExaminedAt(files: seq<SourceFile>, i: nat)
    requires i < |files|
    ensures Candidates(files)[i] == Examine(files[i])
  {
  }

  /** One step of the walk, from a prefix that has not failed: a failure there is the failure of the whole walk. */
  lemma StepOutcome(cs: seq<Candidate>, applied: seq<Row>, sum: string -> string, i: nat, pending: seq<Migration>,
                    step: Result<Option<Migration>>)
    requires i < |cs| && PlanPrefix(cs, applied, sum, i) == Ok(pending)
    requires step == CheckFile(cs[i], i, applied, sum)
    ensures step.Err? ==> PlanPrefix(cs, applied, sum, |cs|) == Err(step.error)
    ensures step.Ok? ==>
              PlanPrefix(cs, applied, sum, i + 1) == Ok(if step.value.None? then pending else pending + [step.value.value])
  {
    PlanStep(cs, applied, sum, i, pending);
    if step.Err? {
      ErrorPersists(cs, applied, sum, i + 1, |cs|);
    }
  }

  /**
   * The planning loop of `Migrate`, step by step in listing order, returning
   * at the first failure. Examining a file (its base name and the parse of
   * that name) is pure, so the listing is examined once up front; the checks
   * themselves, and so the error reported, still come file by file.
   */
  method PlanMigrations(files: seq<SourceFile>, applied: seq<Row>, sum: string -> string) returns (r: Result<seq<Migration>>)
    ensures r == Plan(files, applied, sum)
  {
    var listed := Candidates(files);
    var pending: seq<Migration> := [];
    for i := 0 to |listed|
      invariant PlanPrefix(listed, applied, sum, i) == Ok(pending)
    {
      var step := CheckFile(listed[i], i, applied, sum);
      StepOutcome(listed, applied, sum, i, pending, step);
      match step
      case Err(e) =>
        return Err(e);
      case Ok(None) =>
      case Ok(Some(m)) =>
        pending := pending + [m];
    }
    r := Ok(pending);
  }

  // ---------------------------------------------------------------------
  // Properties of the plan
  // ---------------------------------------------------------------------

  /** Contiguity: a successful plan means the file at listing index i is named with version i. */
  lemma PlanVersionsAreIndices(files: seq<SourceFile>, applied: seq<Row>, sum: string -> string, i: nat)
    requires Plan(files, applied, sum).Ok? && i < |files|
    ensures ParseMigrationFile(files[i].path).Ok?
    ensures ParseMigrationFile(files[i].path).value.version == i
  {
    var cs := Candidates(files);
    assert CheckFile(cs[i], i, applied, sum).Ok?;
    assert cs[i] == Examine(files[i]);
  }

  /** Drift check: a successful plan means every file with an applied record has that record's checksum. */
  lemma PlanMatchesAppliedChecksums(files: seq<SourceFile>, applied: seq<Row>, sum: string -> string, i: nat)
    requires Plan(files, applied, sum).Ok? && i < |files| && i < |applied|
    ensures files[i].content.Read? && sum(files[i].content.text) == applied[i].checksum
  {
    var cs := Candidates(files);
    assert CheckFile(cs[i], i, applied, sum).Ok?;
    assert cs[i] == Examine(files[i]);
  }

  /**
   * The pending list is the files from index |applied| on, in listing order:
   * the j-th pending migration comes from file |applied| + j, whose name
   * parses to version |applied| + j with the migration's description, whose
   * content is the migration's content, and whose checksum it carries.
   */
  lemma PlanPendingAreTheUnappliedFiles(files: seq<SourceFile>, applied: seq<Row>, sum: string -> string,
                                         pending: seq<Migration>, j: nat)
    requires Plan(files, applied, sum) == Ok(pending) && j < |pending|
    ensures |applied| + j < |files|
    ensures pending[j].version == |applied| + j
    ensures ParseMigrationFile(files[|applied| + j].path).Ok?
    ensures ParseMigrationFile(files[|applied| + j].path).value == ParsedName(|applied| + j, pending[j].description)
    ensures files[|applied| + j].content == Read(pending[j].content)
    ensures pending[j].checksum == sum(pending[j].content)
  {
    var cs := Candidates(files);
    var i := |applied| + j;
    PendingCandidate(cs, applied, sum, pending, j);
    assert cs[i].name == ParseMigrationFile(files[i].path);
    assert cs[i].content == files[i].content;
  }

  /** The j-th pending migration is what the check of candidate |applied| + j produced. */
  lemma PendingCandidate(cs: seq<Candidate>, applied: seq<Row>, sum: string -> string, pending: seq<Migration>, j: nat)
    requires PlanPrefix(cs, applied, sum, |cs|) == Ok(pending) && j < |pending|
    ensures |applied| + j < |cs|
    ensures CheckFile(cs[|applied| + j], |applied| + j, applied, sum) == Ok(Some(pending[j]))
  {
  }

  /** The pending versions count up by one from the length of the history. */
  lemma PendingVersionsAscend(files: seq<SourceFile>, applied: seq<Row>, sum: string -> string)
    requires Plan(files, applied, sum).Ok?
    ensures forall j :: 0 <= j < |Plan(files, applied, sum).value| ==>
              Plan(files, applied, sum).value[j].version == |applied| + j
  {
    var cs := Candidates(files);
    var pending := Plan(files, applied, sum).value;
    forall j | 0 <= j < |pending|
      ensures pending[j].version == |applied| + j
    {
      PendingCandidate(cs, applied, sum, pending, j);
    }
  }

  /** Every candidate passing its own check is enough for the walk to succeed. */
  lemma {:induction false} PlanSucceedsWhenEveryFilePasses(cs: seq<Candidate>, applied: seq<Row>, sum: string -> string, k: nat)
    requires k <= |cs|
    requires forall i :: 0 <= i < k ==> CheckFile(cs[i], i, applied, sum).Ok?
    ensures PlanPrefix(cs, applied, sum, k).Ok?
  {
    if k > 0 {
      PlanSucceedsWhenEveryFilePasses(cs, applied, sum, k - 1);
    }
  }

  /** The first candidate whose check fails decides the error of the whole walk. */
  lemma FirstFailureDecides(cs: seq<Candidate>, applied: seq<Row>, sum: string -> string, k: nat, e: Error)
    requires k < |cs|
    requires forall i :: 0 <= i < k ==> CheckFile(cs[i], i, applied, sum).Ok?
    requires CheckFile(cs[k], k, applied, sum) == Err(e)
    ensures PlanPrefix(cs, applied, sum, |cs|) == Err(e)
  {
    PlanSucceedsWhenEveryFilePasses(cs, applied, sum, k);
    assert PlanPrefix(cs, applied, sum, k + 1) == Err(e);
    ErrorPersists(cs, applied, sum, k + 1, |cs|);
  }

  /** Conversely, a failed walk failed at a first failing candidate, and with that candidate's error. */
  lemma {:induction false} ErrorComesFromFirstFailure(cs: seq<Candidate>, applied: seq<Row>, sum: string -> string, k: nat)
    requires k <= |cs|
    requires PlanPrefix(cs, applied, sum, k).Err?
    ensures exists f :: 0 <= f < k
              && (forall i :: 0 <= i < f ==> CheckFile(cs[i], i, applied, sum).Ok?)
              && CheckFile(cs[f], f, applied, sum) == Err(PlanPrefix(cs, applied, sum, k).error)
  {
    if PlanPrefix(cs, applied, sum, k - 1).Err? {
      ErrorComesFromFirstFailure(cs, applied, sum, k - 1);
    } else {
      var f := k - 1;
      assert CheckFile(cs[f], f, applied, sum) == Err(PlanPrefix(cs, applied, sum, k).error);
    }
  }

  /**
   * A file whose version does not match its index is rejected before its
   * content is read or compared: its content and the history play no part,
   * and the error names its base name.
   */
  lemma VersionCheckPrecedesRead(path: string, content: ReadResult, index: nat, applied: seq<Row>, sum: string -> string)
    requires ParseMigrationFile(path).Ok? && ParseMigrationFile(path).value.version != index
    ensures CheckFile(Examine(SourceFile(path, content)), index, applied, sum) == Err(IncorrectVersion(Base(path)))
  {
  }

  /** Applied records past the number of candidates are never looked at. */
  lemma {:induction false} ExtraAppliedRecordsIgnored(cs: seq<Candidate>, applied: seq<Row>, extra: seq<Row>,
                                                      sum: string -> string, k: nat)
    requires k <= |cs| <= |applied|
    ensures PlanPrefix(cs, applied + extra, sum, k) == PlanPrefix(cs, applied, sum, k)
  {
    if k > 0 {
      ExtraAppliedRecordsIgnored(cs, applied, extra, sum, k - 1);
      assert (applied + extra)[k - 1] == applied[k - 1];
      assert CheckFile(cs[k - 1], k - 1, applied + extra, sum) == CheckFile(cs[k - 1], k - 1, applied, sum);
    }
  }

  /** With at least as many applied records as files, a successful plan has nothing pending. */
  lemma FullyAppliedPlansNothing(files: seq<SourceFile>, applied: seq<Row>, sum: string -> string)
    requires |files| <= |applied| && Plan(files, applied, sum).Ok?
    ensures Plan(files, applied, sum).value == []
  {
  }

  /**
   * A candidate that passed against one history passes, as already applied,
   * against any history that agrees with the first on its applied records
   * and records the checksum of its content where it was pending.
   */
  lemma CheckAgainstLongerHistory(c: Candidate, i: nat, applied: seq<Row>, longer: seq<Row>, sum: string -> string)
    requires CheckFile(c, i, applied, sum).Ok? && i < |longer|
    requires i < |applied| ==> longer[i].checksum == applied[i].checksum
    requires i >= |applied| ==> longer[i].checksum == sum(c.content.text)
    ensures CheckFile(c, i, longer, sum) == Ok(None)
  {
  }

  /**
   * Re-planning after the pending migrations have been recorded finds
   * nothing to do: with the pending rows appended to the history, every
   * file matches its record.
   */
  lemma PlanAfterRecording(files: seq<SourceFile>, applied: seq<Row>, sum: string -> string, pending: seq<Migration>)
    requires Plan(files, applied, sum) == Ok(pending) && |applied| <= |files|
    ensures Plan(files, applied + RowsOf(pending), sum) == Ok([])
  {
    var cs := Candidates(files);
    var longer := applied + RowsOf(pending);
    forall i | 0 <= i < |cs|
      ensures CheckFile(cs[i], i, longer, sum).Ok?
    {
      assert CheckFile(cs[i], i, applied, sum).Ok?;
      if i >= |applied| {
        assert CheckFile(cs[i], i, applied, sum) == Ok(Some(pending[i - |applied|]));
        assert longer[i] == RowOf(pending[i - |applied|]);
      } else {
        assert longer[i] == applied[i];
      }
      CheckAgainstLongerHistory(cs[i], i, applied, longer, sum);
    }
    PlanSucceedsWhenEveryFilePasses(cs, longer, sum, |cs|);
  }

  /** A failed plan reports one of the checks' errors: a bad name, a wrong version, a failed read or a checksum mismatch. */
  lemma PlanErrorIsACheckError(files: seq<SourceFile>, applied: seq<Row>, sum: string -> string)
    requires Plan(files, applied, sum).Err?
    ensures var e := Plan(files, applied, sum).error;
            e.InvalidFilename? || e.SlicePanic? || e.IncorrectVersion? || e.FsError? || e.ChecksumMismatch?
  {
    var cs := Candidates(files);
    var e := Plan(files, applied, sum).error;
    ErrorComesFromFirstFailure(cs, applied, sum, |files|);
    var f :| 0 <= f < |files| && CheckFile(cs[f], f, applied, sum) == Err(e);
    ExaminedAt(files, f);
    CheckErrorKind(files[f], f, applied, sum);
  }

  /** The check of one listed file fails only with one of the four checks' errors. */
  lemma CheckErrorKind(file: SourceFile, index: nat, applied: seq<Row>, sum: string -> string)
    requires CheckFile(Examine(file), index, applied, sum).Err?
    ensures var e := CheckFile(Examine(file), index, applied, sum).error;
            e.InvalidFilename? || e.SlicePanic? || e.IncorrectVersion? || e.FsError? || e.ChecksumMismatch?
  {
  }
}

=== FILE: types.dfy ===
/**
 * Values shared by every part of the migration engine: optional values,
 * results, the errors the engine reports (with the text Go's `Error()`
 * would give for each), a migration, and a row of the history table.
 */
module Types {

  datatype Option<T> = None | Some(value: T)

  /** The Go `(value, error)` pair: exactly one of the two is meaningful. */
  datatype Result<T> = Ok(value: T) | Err(error: Error)

  /** Every error the engine can return, carrying what its message names. */
  datatype Error =
    | InvalidFilename(basename: string)
      // "invalid filename format: <basename>"
    | SlicePanic(basename: string)
      // `parts[0][1:]` on an empty version prefix: a Go runtime panic, surfaced as an error here
    | IncorrectVersion(basename: string)
      // "incorrect version number: <basename>"
    | ChecksumMismatch(path: string)
      // "checksum does not match expected value: <path>" (the full listed path)
    | DirectoryMissing(dir: string)
      // "<dir> directory does not exist"
    | FsError(message: string)
      // a filesystem failure (stat, glob, open, read) returned unchanged
    | DbError(message: string)
      // a database failure (begin, exec, query, commit) returned unchanged
    | LockStuck(table: string, lockError: string, original: Option<Error>)
      // the lock row could not be deleted; keeps the error it was returned with

  const InvalidFormatLead: string := "invalid filename format: "
  const SlicePanicText: string := "runtime error: slice bounds out of range [1:0]"
  const IncorrectVersionLead: string := "incorrect version number: "
  const ChecksumMismatchLead: string := "checksum does not match expected value: "
  const DirectoryMissingTail: string := " directory does not exist"
  const FromSeparator: string := "\nfrom: "

  /** The text of the error, as the formatting in the engine produces it. */
  function Message(e: Error): string
  {
    match e
    case InvalidFilename(b) => Suffixed(InvalidFormatLead, b)
    case SlicePanic(_) => SlicePanicText
    case IncorrectVersion(b) => Suffixed(IncorrectVersionLead, b)
    case ChecksumMismatch(p) => Suffixed(ChecksumMismatchLead, p)
    case DirectoryMissing(d) => Prefixed(d, DirectoryMissingTail)
    case FsError(m) => m
    case DbError(m) => m
    case LockStuck(t, l, original) =>
      LockText(t, l, if original.Some? then Some(Message(original.value)) else None)
  }

  /** The lock-release message: the instruction, the delete's failure, and the original message when there is one. */
  function LockText(table: string, lockError: string, original: Option<string>): string
  {
    LockPreamble(table) + lockError + (if original.Some? then FromSeparator + original.value else "")
  }

  /**
   * Each message names what it is about: the base name or the path of the
   * file, the directory, or, for a filesystem or database failure, the
   * driver's own text unchanged.
   */
  lemma MessageNamesItsSubject(e: Error)
    ensures e.InvalidFilename? || e.IncorrectVersion? ==> EndsWith(Message(e), e.basename)
    ensures e.ChecksumMismatch? ==> EndsWith(Message(e), e.path)
    ensures e.DirectoryMissing? ==> e.dir <= Message(e)
    ensures e.FsError? || e.DbError? ==> Message(e) == e.message
  {
  }

  /** `text` after a fixed `lead`. */
  function Suffixed(lead: string, text: string): (m: string)
    ensures EndsWith(m, text) && lead <= m && |m| == |lead| + |text|
  {
    var m := lead + text;
    assert m[|m| - |text|..] == text;
    m
  }

  /** `text` before a fixed `tail`. */
  function Prefixed(text: string, tail: string): (m: string)
    ensures text <= m && EndsWith(m, tail)
  {
    var m := text + tail;
    assert m[|m| - |tail|..] == tail;
    m
  }

  /** `s` ends with `suffix`. */
  predicate EndsWith(s: string, suffix: string)
  {
    |suffix| <= |s| && s[|s| - |suffix|..] == suffix
  }

  /**
   * The three per-file checks are told apart by their text alone: whatever
   * the file names, an invalid name, a wrong version and a checksum mismatch
   * never give the same message.
   */
  lemma FileErrorsAreDistinct(a: string, b: string, c: string)
    ensures Message(InvalidFilename(a)) != Message(IncorrectVersion(b))
    ensures Message(InvalidFilename(a)) != Message(ChecksumMismatch(c))
    ensures Message(IncorrectVersion(b)) != Message(ChecksumMismatch(c))
  {
    assert Message(InvalidFilename(a))[2] == 'v';
    assert Message(IncorrectVersion(b))[2] == 'c';
    assert Message(ChecksumMismatch(c))[2] == 'e';
  }

  /** The operator instruction that opens every lock-release error. */
  function LockPreamble(table: string): string
  {
    LockInstructionLead + table + LockInstructionTail
  }

  const LockInstructionLead: string := "ATTENTION: could not release lock! please run `delete from "
  const LockInstructionTail: string := " where version=-1;` and try again.\noriginal err: "

  /** A migration read from a file: its parsed version, the description, the checksum of its content and the content. */
  datatype Migration = Migration(version: int, description: string, checksum: string, content: string)

  /** A row of the history table; the lock sentinel is a row whose version is -1. */
  datatype Row = Row(version: int, description: string, checksum: string)

  /** The history row that records migration `m`. */
  function RowOf(m: Migration): Row
  {
    Row(m.version, m.description, m.checksum)
  }

  /** The history rows that record `ms`, in order. */
  function RowsOf(ms: seq<Migration>): (rows: seq<Row>)
    ensures |rows| == |ms|
    ensures forall k :: 0 <= k < |ms| ==> rows[k] == RowOf(ms[k])
  {
    seq(|ms|, k requires 0 <= k < |ms| => RowOf(ms[k]))
  }
}
